=== FILE: README.md ===
# archinstall core, modelled in Dafny

This project models three parts of archinstall, the Arch Linux installer library.

- **The `Installer` session** (`archinstall/lib/installer.py`):
  - construction, and the `helper_flags` bookkeeping;
  - `pacstrap`, `genfstab`, `minimal_installation` and `add_bootloader`;
  - the configuration writers: hostname, locale, keyboard and sudoers;
  - user creation;
  - what `__exit__` reports when the `with` block ends.
- **The interactive selectors** (`archinstall/lib/user_interaction.py`): how
  `select_disk`, `select_profile`, `select_language` and
  `select_mirror_regions` resolve the lines a user types.
- **The network helpers** (`archinstall/lib/networking.py`):
  - the `SIOCGIFHWADDR` request buffer;
  - MAC formatting;
  - the `list_interfaces` loop.

Files:

| file | module | contents |
|---|---|---|
| `errors.dfy` | `Errors` | `Option`, `Result` and the exceptions raised by the modelled code |
| `text.dfy` | `Text` | `str.split`/`join`, `isdigit`/`int`, `lower`, `strip`, substring search, `os.path.basename` |
| `ordering.dfy` | `Ordering` | Python's string order and `sorted` |
| `dicts.dfy` | `Dicts` | insertion-ordered `dict` as a list of entries |
| `selection.dfy` | `Selection` | the four selectors |
| `networking.dfy` | `Networking` | UTF-8, the ioctl buffer, MAC text, `get_hw_addr`, `list_interfaces` |
| `installer.dfy` | `Installer` | the `Installer` methods as functions on a `Session` value |
| `installer_runs.dfy` | `InstallerRuns` | a whole `with Installer(...)` block as a script of calls |

How the model stands in for the outside world:

- **Shell commands.** Every `sys_command` goes through a *runner*. The runner
  is a function from the command line and the current file map to an exit
  code, output and the file map afterwards.
- **The command log.** The session keeps a log of the commands run and the
  files written or appended. This lets contracts state what was done, and in
  which order.
- **Typed lines.** The lines a user types are parameters.
- **The kernel.** The `ioctl` reply is a parameter. `None` stands for an
  `OSError`.
- **Device directories.** The first level of `/dev/disk/by-uuid` and of
  `/dev/disk/by-partuuid` are given as `(name, resolved path)` pairs, in walk
  order.

Where the code and its docstrings disagree, the model follows the code:

- **`list_interfaces` docstring.** It says `skip_loopback=True` keeps the
  loopback interface. The code drops it.
- **`get_hw_addr` docstring.** It promises `xx-xx-…`. The code joins with `:`,
  and only `list_interfaces` swaps in `-`.
- **`select_disk` docstring.** It promises the drive's name. The code returns
  the dictionary value, which is the `BlockDevice`.
- **`select_disk` bounds.** It does not check an index against the list. An
  out-of-range number raises `IndexError`, even when some disk has that
  number as its name.

## Model

| member | source | states |
|---|---|---|
| Selection.SelectDisk | archinstall/lib/user_interaction.py:15-45 | An empty dict raises `DiskError` with the fixed message. A success is the value of some listed disk. An all-digit line past the end raises `IndexError`. A line that is not all digits selects the value of the disk it names, and otherwise raises `DiskError` "Selected drive does not exist" quoting the line. |
| Selection.DiskByIndex | archinstall/lib/user_interaction.py:28-36 | Any all-digit line whose value `i` is below the number of disks (such as `str(i)` or `0i`) selects the value of the i-th name in sorted order. |
| Selection.DiskByName | archinstall/lib/user_interaction.py:37-38 | A non-numeric disk name selects that disk's value. |
| Selection.DiskIndexHasNoFallback | archinstall/lib/user_interaction.py:35-36 | A disk whose name is a number at least the number of disks cannot be selected by typing its name: the index reading wins and raises `IndexError`. |
| Selection.SelectProfile | archinstall/lib/user_interaction.py:60-88 | An empty option list raises `RequirementError`. A success is always one of the options. A line that is not an in-range index selects itself when it is an option, and otherwise raises "Selected profile does not exist." |
| Selection.ProfileByIndex | archinstall/lib/user_interaction.py:80-84 | Any all-digit line whose value `i` is below the number of profiles selects the i-th profile in sorted order. |
| Selection.ProfileIndexBeatsName | archinstall/lib/user_interaction.py:80-86 | With options `1` and `a`, typing `1` selects `a`: the index reading is tried before the name. |
| Selection.ProfileSortedBeforeIndexing | archinstall/lib/user_interaction.py:60-84 | The index counts in the sorted list, not in the given order. |
| Selection.ProfileFallbacks | archinstall/lib/user_interaction.py:80-88 | Every line that is not an in-range index, whether an out-of-range number, a blank line or other text, selects itself when it is a profile name and otherwise raises "Selected profile does not exist." |
| Selection.Languages | archinstall/lib/user_interaction.py:132-137 | The shown list is sorted. Each entry is an option, and has length two when only country codes are shown. |
| Selection.LanguagesCount | archinstall/lib/user_interaction.py:132-137 | The shown list holds each shown option exactly as often as the options do, so repeated options get separate numbers. |
| Selection.LanguagesComplete | archinstall/lib/user_interaction.py:132-137 | Every option is shown; with only country codes, every two-letter option is shown. |
| Selection.CountryCodesComplete | archinstall/lib/user_interaction.py:134 | Every two-letter option survives the country-code filter. |
| Selection.CountryCodesCount | archinstall/lib/user_interaction.py:134 | The filter keeps each two-letter option as often as it occurs, and nothing else. |
| Selection.SelectLanguage | archinstall/lib/user_interaction.py:115-169 | Nothing to show raises `RequirementError`. With something to show, a first line that is not a help request is resolved exactly as `ResolveLanguage` states: an in-range index, else a name among all options, else `RequirementError`. A missing first line, or a help request with no second line, fails with `EOFError`. |
| Selection.ResolveLanguage | archinstall/lib/user_interaction.py:151-165 | An in-range index selects that shown entry. Otherwise the line selects itself when it is among all the options, and raises `RequirementError` when it is not. |
| Selection.LanguageByIndex | archinstall/lib/user_interaction.py:151-155 | Any all-digit line whose value `i` is below the number of shown languages selects the i-th shown language. |
| Selection.LanguageByName | archinstall/lib/user_interaction.py:156-162 | An option that is not an in-range index selects itself, even when it is hidden from the shown list. |
| Selection.LanguageHelpRestarts | archinstall/lib/user_interaction.py:147-150 | `?`/`help` restarts selection on the search results for the next line, showing every result. An empty search result then raises. |
| Selection.ShownCountryCodesExample | archinstall/lib/user_interaction.py:132-135 | From `us`, `sv-latin1` and `se`, only `se` and `us` are shown, in that order. |
| Selection.LanguageHiddenName | archinstall/lib/user_interaction.py:156-162 | `sv-latin1` can be typed by name although it is not shown. |
| Selection.LanguageShownIndex | archinstall/lib/user_interaction.py:151-155 | Typing `1` in that example selects `us`. |
| Selection.LanguageNoCountryCodes | archinstall/lib/user_interaction.py:132-169 | With only country codes shown, any option list without a two-letter entry leaves nothing to show, and selection raises `RequirementError` whatever lines are typed. |
| Selection.LanguageNeedsInput | archinstall/lib/user_interaction.py:144-148 | For every non-empty shown list, no line at all, or a help request with no following line, fails as `input()` does at end of file. |
| Selection.HelpIsCaseInsensitive | archinstall/lib/user_interaction.py:147 | A line is a help request exactly when it is `?` or `help` in any mix of upper and lower case. |
| Selection.DigitLineIsPlain | archinstall/lib/user_interaction.py:203-221 | An all-digit line is neither blank nor a help request, so it always reaches the index branch. |
| Selection.HelpIsNotBlank | archinstall/lib/user_interaction.py:203-206 | A help request is never blank, so the blank check cannot swallow it. |
| Selection.SelectMirrorRegions | archinstall/lib/user_interaction.py:172-238 | An empty dict raises `RequirementError`. A success is a sub-dictionary of the mirrors. Only a help request can select more than one region, and only a blank line or a help request selects none. A blank line selects nothing. A line that is not blank, not a help request and not an in-range index selects exactly the region it names, and otherwise raises "Selected region does not exist." Running out of lines fails with `EOFError`. |
| Selection.MirrorByIndex | archinstall/lib/user_interaction.py:218-223 | Any all-digit line whose value `i` is below the number of regions selects exactly the i-th region in sorted order, with its mirrors. |
| Selection.MirrorByName | archinstall/lib/user_interaction.py:229-230 | A region name that is not blank, not a help request and not an in-range index selects exactly that region, with its mirrors. |
| Selection.MirrorSearch | archinstall/lib/user_interaction.py:206-216 | After a help request, a region is in the result exactly when its lower-cased name contains the stripped, lower-cased filter, and it keeps its original value. |
| Selection.RegionsContainingGet | archinstall/lib/user_interaction.py:212-214 | The search loop keeps exactly the matching regions, each with its value from `mirrors`. |
| Selection.RegionsContainingIsSubDict | archinstall/lib/user_interaction.py:212-214 | Every entry the search loop keeps comes unchanged from `mirrors`. |
| Dicts.Put | archinstall/lib/user_interaction.py:214 | Assigning to an existing key keeps the key order; a new key is appended. |
| Dicts.GetPut | archinstall/lib/user_interaction.py:214 | After `d[k] = v`, `k` reads `v` and every other key reads what it read before. |
| Dicts.PutKeepsDistinct | archinstall/lib/networking.py:38 | Assignment never makes a key occur twice. |
| Ordering.Sort | archinstall/lib/user_interaction.py:28 | `sorted` returns a sorted permutation of its input. |
| Ordering.SortedUnique | archinstall/lib/user_interaction.py:28 | Two sorted permutations of the same strings are equal, so `sorted` is determined by the multiset of names. |
| Ordering.SortIgnoresOrder | archinstall/lib/user_interaction.py:28 | The numbering shown for disks, profiles and regions does not depend on the order the dict or list supplies them in. |
| Ordering.LessOrEqualTotal | archinstall/lib/user_interaction.py:28 | Python's string comparison is total. |
| Ordering.LessOrEqualTransitive | archinstall/lib/user_interaction.py:28 | Python's string comparison is transitive. |
| Ordering.LessOrEqualAntisymmetric | archinstall/lib/user_interaction.py:28 | Python's string comparison is antisymmetric. |
| Text.ParseNatToString | archinstall/lib/user_interaction.py:35-36 | `int(str(n)) == n`, and `str(n)` passes `isdigit`. |
| Text.Strip | archinstall/lib/user_interaction.py:203-211 | `strip` removes exactly the leading and trailing whitespace. |
| Text.JoinSplit | archinstall/lib/installer.py:40 | `" ".join(s.split(" ")) == s`. |
| Text.SplitJoin | archinstall/lib/installer.py:74 | Splitting the join of separator-free parts gives the parts back. |
| Text.ContainsAt | archinstall/lib/user_interaction.py:213 | `filter in name` holds exactly when the filter occurs at some position of the name. |
| Text.BasenameSuffix | archinstall/lib/installer.py:186 | `os.path.basename` is the slash-free suffix after the last `/`. |
| Networking.EncodeChar | archinstall/lib/networking.py:19 | A character's UTF-8 form is 1 to 4 bytes. It is a single byte exactly for ASCII, and it contains a zero byte only for NUL. |
| Networking.DecodeEncode | archinstall/lib/networking.py:19 | Strict UTF-8 decoding inverts `bytes(s, "utf-8")`. |
| Networking.PackName | archinstall/lib/networking.py:19 | `struct.pack("256s", …)` always yields a 256-byte buffer. |
| Networking.PackNameLayout | archinstall/lib/networking.py:19 | The buffer starts with at most 15 bytes of the name's UTF-8 form and is zero after them. |
| Networking.PackNameRoundTrip | archinstall/lib/networking.py:19 | A name without NUL whose UTF-8 form fits in 15 bytes is exactly what the kernel reads back as a C string from the buffer. |
| Networking.PackAsciiName | archinstall/lib/networking.py:19 | A short ASCII name is copied byte for byte. |
| Networking.CString | archinstall/lib/networking.py:19 | The C string of a buffer is its NUL-free prefix, ended by a zero byte or by the buffer's end. |
| Networking.FormatMacLayout | archinstall/lib/networking.py:21 | For a full reply, the MAC text is six two-digit lower-case hex groups joined by `:`, 17 characters in all. |
| Networking.ParseFormatHex | archinstall/lib/networking.py:21 | Parsing the `%02x` groups joined by `:` gives back the bytes. |
| Networking.FormatParseHex | archinstall/lib/networking.py:21 | Any text that parses as such groups is the formatting of the parsed bytes: the format is canonical. |
| Networking.MacRoundTrip | archinstall/lib/networking.py:21 | The MAC text encodes exactly bytes 18 to 23 of the reply. |
| Networking.GetHwAddr | archinstall/lib/networking.py:9-21 | Raises `OSError` exactly when the `SIOCGIFHWADDR` ioctl on the packed name fails. Otherwise it returns the MAC text of the reply. |
| Networking.MacKey | archinstall/lib/networking.py:37 | The key has no `:`. It has the same length as the MAC text, with each `:` turned into `-`. |
| Networking.AddInterface | archinstall/lib/networking.py:33-38 | One loop step raises exactly when the interface is considered and its lookup raises, with that error. It keeps the keys distinct. |
| Networking.AddInterfaceGet | archinstall/lib/networking.py:37-38 | One loop step stores the interface under its MAC key and changes no other key. |
| Networking.ListInterfacesPrefix | archinstall/lib/networking.py:32-38 | The loop keeps the keys distinct. An error is the error of some interface's lookup. |
| Networking.ListInterfaces | archinstall/lib/networking.py:24-39 | The result is a dict keyed by MAC, and the only error it raises is `OSError`. |
| Networking.ListInterfacesPrefixOk | archinstall/lib/networking.py:33-38 | The loop succeeds exactly when every considered interface's lookup succeeds. |
| Networking.AllAnswerEvery | archinstall/lib/networking.py:33-38 | The interface-by-interface success condition of the loop is the same as "every considered interface has an address". |
| Networking.ListInterfacesPrefixGet | archinstall/lib/networking.py:33-38 | After the loop, a MAC key maps to the last considered interface with that MAC. |
| Networking.ListInterfacesSpec | archinstall/lib/networking.py:24-39 | `list_interfaces` succeeds exactly when the ioctl answers for every considered interface. Each key then maps to the last considered interface with that MAC, so later interfaces overwrite earlier ones. |
| Networking.LoopbackSkippedIffAsked | archinstall/lib/networking.py:34-35 | With `skip_loopback`, no value is `lo`. Without it, `lo` is kept when it comes last. |
| Installer.Init | archinstall/lib/installer.py:29-43 | A new session has every flag unset and an empty log. The base packages are at least one space-free word and join back to the given string, so an empty string gives one empty word, as `''.split(' ')` does. The other settings are kept as given. |
| Installer.PostInstallCheck | archinstall/lib/installer.py:66-67 | The missing steps are exactly the unset flags, in the order `bootloader`, `base`, `user`. The list is empty exactly when all three are set. |
| Installer.FreshSessionMissesAll | archinstall/lib/installer.py:34-67 | A fresh session misses all three steps. |
| Installer.Exit | archinstall/lib/installer.py:51-64 | A pending exception is re-raised unchanged. Otherwise the install is reported complete exactly when all three flags are set, with the missing steps listed. |
| Installer.Pacstrap | archinstall/lib/installer.py:69-79 | Pacstrap never raises. A failed mirror sync stops before strapping. Otherwise it runs `pacstrap <mountpoint> <packages joined by spaces>`, and the result is true exactly when that command exits 0. |
| Installer.StrapPassesPackageString | archinstall/lib/installer.py:74 | Strapping a new session's own package list passes the original package string unchanged. |
| Installer.DefaultSession | archinstall/lib/installer.py:29 | With the keyword defaults, the base system is strapped into `/mnt` with the default package string, and `ArchInstalled` is the hostname written. |
| Installer.Genfstab | archinstall/lib/installer.py:84-88 | Runs genfstab, and the files afterwards are exactly those the command leaves. It raises `RequirementError` (with the command output appended) exactly when fstab is absent from them. |
| Installer.SetHostname | archinstall/lib/installer.py:90-93 | Overwrites `/etc/hostname` with the session's hostname and a newline. |
| Installer.SetHostnameIgnoresArgument | archinstall/lib/installer.py:90-93 | The `hostname` argument has no effect on the outcome. |
| Installer.SetLocale | archinstall/lib/installer.py:95-103 | An empty locale does nothing and returns true. Otherwise it appends to locale.gen, overwrites locale.conf and runs `locale-gen`, in that order. |
| Installer.SetLocaleResult | archinstall/lib/installer.py:98-103 | The result is whether `locale-gen` exits 0 when run on the files just written. |
| Installer.MinimalLocaleLines | archinstall/lib/installer.py:146-147 | A successful `minimal_installation` appends `en_US.UTF-8.UTF-8 UTF-8` to locale.gen and writes `LANG=en_US.UTF-8.UTF-8` to locale.conf: `set_locale` adds the encoding a second time. |
| Installer.SetKeyboardLanguage | archinstall/lib/installer.py:244-248 | Overwrites `/etc/vconsole.conf` with the keymap and the fixed font, and returns true. |
| Installer.EnableSudo | archinstall/lib/installer.py:215-219 | Appends one sudoers rule, with a `%` prefix for a group, and returns true. |
| Installer.UserSetPw | archinstall/lib/installer.py:234-242 | Runs chpasswd. The `user` flag is set exactly when the user is root; other flags are kept. |
| Installer.AddToGroups | archinstall/lib/installer.py:227-229 | Runs one `gpasswd -a` per group, in order. |
| Installer.UserCreate | archinstall/lib/installer.py:221-232 | Adds exactly these actions, in order: useradd; chpasswd when the password is non-empty; one `gpasswd -a` per group, in order; the user's sudoers rule when sudo is asked for. The `user` flag is set exactly when sudo is asked for, or a non-empty password is set for root. |
| Installer.UserCreateSudoRule | archinstall/lib/installer.py:231-232 | With sudo, the last action is appending the user's sudoers rule. |
| Installer.WithBtrfs | archinstall/lib/installer.py:132-134 | `btrfs-progs` is added to the packages exactly for a btrfs root. |
| Installer.Configure | archinstall/lib/installer.py:139-159 | After genfstab, adds exactly these actions, in order: append the tmpfs line to fstab; write the hostname; append the `en_US.UTF-8` line to locale.gen; write locale.conf; run `locale-gen`; run `chmod 700 /root`; and for a btrfs root, overwrite `/etc/mkinitcpio.conf` with the btrfs hooks and run `mkinitcpio -p linux`. |
| Installer.MinimalInstallation | archinstall/lib/installer.py:127-162 | The packages gain `btrfs-progs` exactly for btrfs. Success returns true, sets only `base`, and logs exactly the pacstrap commands, genfstab and the `Configure` actions. Failure raises `RequirementError`, leaves the flags alone, and logs only the pacstrap commands and genfstab. |
| Installer.MinimalInstallationOutcome | archinstall/lib/installer.py:136-137 | It succeeds exactly when genfstab leaves an fstab behind, whatever pacstrap returned. |
| Installer.BaseSetDespiteFailedStrap | archinstall/lib/installer.py:136-161 | A failed mirror sync does not stop `base` from being set. |
| Installer.MinimalInstallationOrder | archinstall/lib/installer.py:136-140 | Success runs the sync first, then genfstab, then appends the tmpfs line. |
| Installer.FindIdentifier | archinstall/lib/installer.py:183-192 | Finds the first entry whose resolved path has the device's basename, or reports that none does. |
| Installer.OptionsLinesDiffer | archinstall/lib/installer.py:188-199 | The encrypted and plain options lines never coincide. |
| Installer.AddBootloader | archinstall/lib/installer.py:164-204 | Logs exactly: the `bootctl --no-variables --path=/boot install` run, the loader.conf write, then the entry write. Always writes loader.conf and the entry header. On a match it appends the options line for the first matching identifier, sets `bootloader` and returns true. Otherwise it raises `RequirementError` and leaves the flags alone. |
| InstallerRuns.Apply | archinstall/lib/installer.py:84-242 | A call that raises is `genfstab`, `minimal_installation` or `add_bootloader`, and leaves the flags alone. A call that returns sets exactly the flags it is responsible for. |
| InstallerRuns.ScriptFlagsGrow | archinstall/lib/installer.py:34-38 | No sequence of calls ever clears a flag. |
| InstallerRuns.ScriptRaises | archinstall/lib/installer.py:84-204 | A `with` block that ends in an exception contains a call that may raise. |
| InstallerRuns.ScriptFlag | archinstall/lib/installer.py:161-239 | After a block that raises nothing, a flag is set exactly when it was set before or some call sets it. |
| InstallerRuns.FreshScriptCompletes | archinstall/lib/installer.py:51-67 | From a fresh session, a block that raises nothing reports completion exactly when it installs the base system, adds the bootloader and sets up a user. |
| InstallerRuns.SafeScriptReturns | archinstall/lib/installer.py:51-55 | Without `genfstab`, `minimal_installation` or `add_bootloader`, `__exit__` never re-raises. |

## Left out

**Not modelled at all**

- `__enter__`: mounting the partitions and creating `/boot` are device side effects with no effect on the modelled state.
- `set_mirrors`, `set_timezone`, `activate_ntp`, `enable_service`, `run_command`, `arch_chroot`, `add_additional_packages` and `install_profile`: these are thin wrappers around commands and other modules, outside this model.
- Loading the chosen profile in `select_profile`, and the `(profile, imported)` result: this reads and imports a file. The model stops at the resolved profile name.
- Printed menus and `log` calls: output only.
- The socket and the interface index returned by `if_nameindex`: only the names, in order, are inputs.

**How the outside world is represented**

- `sys_command` (in `archinstall/lib/general.py`, which is not part of this model) is assumed to return for every exit code and never to raise. `Installer.Pacstrap`'s false branch, `Installer.BaseSetDespiteFailedStrap` and `Installer.MinimalInstallationOutcome` rest on this assumption.
- Directories are not modelled, so every `open()` for writing or appending is assumed to succeed. In Python, a `bootctl` that fails and leaves no `/boot/loader` makes `open(.../loader/loader.conf, 'w')` raise `FileNotFoundError`, and `bootloader` stays unset. `Installer.AddBootloader` instead writes the file and, on a match, sets the flag and returns true. `Installer.SetHostname`, `Installer.SetLocale`, `Installer.SetKeyboardLanguage`, `Installer.EnableSudo`, `Installer.UserCreate`, `Installer.Configure`, `Installer.MinimalInstallation`, `InstallerRuns.Apply`, `InstallerRuns.ScriptRaises` and `InstallerRuns.SafeScriptReturns` rest on the same assumption.
- Real file contents beyond the map the runner returns are not modelled. Only the files the installer writes, and what the runner reports, are tracked.
- `os.walk` and `os.path.realpath`: only the first directory level is given, already resolved to `(name, resolved path)` pairs, because the loop breaks after it.
- `Installer.Partition` carries `str(partition)` as a text field rather than computing it.

**Simplified Python behaviour**

- The `genfstab` exception message appends the captured output as plain text. Python would show the `bytes` repr of the output.
- `Installer.Pacstrap`: Python returns `None`, not `False`, when a command fails. The model returns false, which behaves the same in every truth test the code makes.
- `Installer.Pacstrap`: the variadic calling form (`pacstrap('a', 'b')`) is folded into the list form.
- `Installer.UserCreate`: `password=None` is modelled as the empty string. Both are falsy.
- `Text.ParseNat` and `Text.Lower`: `isdigit` and `lower` are modelled for ASCII only. Python reads a line of non-ASCII decimal digits, such as `３` or `٣`, as an index, because `int` accepts them. The model reads such a line as a name. A line holding other characters that `isdigit` accepts, such as `²`, makes `int` raise `ValueError` in Python, and that error is not modelled. Non-ASCII case mapping is not modelled either.
- `Selection.SelectProfile` and `Selection.SelectLanguage`: a name match returns the typed line itself. The source looks it up with `options[options.index(...)]`, which for a list gives the same string, and for a `dict` argument fails with `AttributeError`. That failure is not modelled.
- `Selection.SelectLanguage`: `options` is a finite list. The search result may be a one-shot generator in Python, which `list(options)` would consume before the later `in` test. That is not modelled.
- `Selection.SelectDisk` and `Selection.SelectProfile` take exactly one typed line, so the `EOFError` their `input()` raises at end of file is not modelled.
- `Networking.PackName`: `bytes(ifname, "utf-8")` raises `UnicodeEncodeError` for a name holding a lone surrogate (a surrogate-escaped interface name). A Dafny `char` is a Unicode scalar value and cannot hold a surrogate, so such names cannot be expressed and that error is not modelled.
- `Networking.FormatMac`: a reply shorter than 24 bytes is clamped as Python slices are. The round-trip lemmas assume a full reply.

=== FILE: dicts.dfy ===
/** Python dictionaries.

    A Python `dict` remembers the order keys were first inserted in, and the
    modelled code iterates over it (`for region in mirrors`) and returns
    dictionaries to callers, so a dictionary is modelled as the sequence of
    its entries in insertion order rather than as a Dafny `map`.
 */
module Dicts {
  import opened Errors

  type Dict<V> = seq<(string, V)>

  function Keys<V>(d: Dict<V>): (ks: seq<string>)
    ensures |ks| == |d|
    ensures forall i :: 0 <= i < |d| ==> ks[i] == d[i].0
  {
    seq(|d|, i requires 0 <= i < |d| => d[i].0)
  }

  /** What every Python dict satisfies: no key occurs twice. */
  predicate DistinctKeys<V>(d: Dict<V>) {
    forall i, j :: 0 <= i < j < |d| ==> d[i].0 != d[j].0
  }

  /** `d.get(k)`: the value stored under `k`, if any. */
  function Get<V>(d: Dict<V>, k: string): (r: Option<V>)
    ensures r.Some? <==> k in Keys(d)
    ensures r.Some? ==> exists i :: 0 <= i < |d| && d[i].0 == k && d[i].1 == r.value
    decreases |d|
  {
    if |d| == 0 then None
    else if d[0].0 == k then Some(d[0].1)
    else
      assert Keys(d) == [d[0].0] + Keys(d[1..]);
      assert forall i :: 0 <= i < |d[1..]| ==> d[1..][i] == d[i + 1];
      Get(d[1..], k)
  }

  lemma KeysPrefixStep<V>(d: Dict<V>, n: nat)
    requires 0 < n <= |d|
    ensures Keys(d[..n]) == Keys(d[..n - 1]) + [d[n - 1].0]
  {
  }

  /** `d[k]` for a key known to be present. */
  function Value<V>(d: Dict<V>, k: string): V
    requires k in Keys(d)
  {
    Get(d, k).value
  }

  /** Every entry of `a` is an entry of `b`: `a` is a sub-dictionary. */
  ghost predicate SubDict<V>(a: Dict<V>, b: Dict<V>) {
    forall k :: Get(a, k).Some? ==> Get(a, k) == Get(b, k)
  }

  /** In a dict the entry holding a key is unique, so `Get` returns it. */
  lemma GetEntry<V>(d: Dict<V>, i: int)
    requires DistinctKeys(d) && 0 <= i < |d|
    ensures Get(d, d[i].0) == Some(d[i].1)
  {
    var r := Get(d, d[i].0);
    var j :| 0 <= j < |d| && d[j].0 == d[i].0 && d[j].1 == r.value;
    assert j == i;
  }

  lemma KeysCons<V>(e: (string, V), d: Dict<V>)
    ensures Keys([e] + d) == [e.0] + Keys(d)
  {
  }

  /** `d[k] = v`: an existing key keeps its position and takes the new
      value; a new key is appended. */
  function Put<V>(d: Dict<V>, k: string, v: V): (r: Dict<V>)
    ensures k in Keys(d) ==> Keys(r) == Keys(d)
    ensures k !in Keys(d) ==> Keys(r) == Keys(d) + [k]
    decreases |d|
  {
    if |d| == 0 then [(k, v)]
    else
      assert d == [d[0]] + d[1..];
      KeysCons(d[0], d[1..]);
      if d[0].0 == k then
        KeysCons((k, v), d[1..]);
        [(k, v)] + d[1..]
      else
        var rest := Put(d[1..], k, v);
        KeysCons(d[0], rest);
        [d[0]] + rest
  }

  /** Reading after `d[k] = v` sees `v` under `k` and the old contents
      under every other key. */
  lemma {:induction false} GetPut<V>(d: Dict<V>, k: string, v: V, k': string)
    ensures Get(Put(d, k, v), k') == if k' == k then Some(v) else Get(d, k')
    decreases |d|
  {
    if |d| > 0 && d[0].0 != k {
      GetPut(d[1..], k, v, k');
      assert Put(d, k, v)[1..] == Put(d[1..], k, v);
    }
  }

  lemma {:induction false} PutKeepsDistinct<V>(d: Dict<V>, k: string, v: V)
    requires DistinctKeys(d)
    ensures DistinctKeys(Put(d, k, v))
  {
    var r := Put(d, k, v);
    forall i, j | 0 <= i < j < |r| ensures r[i].0 != r[j].0 {
      assert Keys(r)[i] == r[i].0 && Keys(r)[j] == r[j].0;
      if k in Keys(d) {
        assert Keys(d)[i] == d[i].0 && Keys(d)[j] == d[j].0;
      } else if j < |d| {
        assert Keys(d)[i] == d[i].0 && Keys(d)[j] == d[j].0;
      } else {
        assert r[j].0 == k;
        assert Keys(d)[i] == r[i].0;
      }
    }
  }
}

=== FILE: errors.dfy ===
/** Failure-carrying values shared by every module of the model.

    Python signals failure by raising; the model returns a `Result` whose
    `Err` arm names the exception class the source raises.
 */
module Errors {

  datatype Option<+T> = None | Some(value: T)

  /** The exception classes the modelled code raises or lets propagate. */
  datatype Error =
    | RequirementError(msg: string)
    | DiskError(msg: string)
      /** `seq[i]` with `i` out of range. */
    | IndexError
      /** `input()` called when no more lines are available. */
    | EOFError
      /** The hardware-address ioctl failed. */
    | OSError

  datatype Result<+T> = Ok(value: T) | Err(error: Error)
}

=== FILE: installer.dfy ===
/** The `Installer` session of `archinstall/lib/installer.py`.

    A session is an immutable record; every operation returns the updated
    session. External commands (`sys_command`) are answered by an oracle
    that, given the command line and the files of the target root, returns
    the exit code, the output and the files afterwards. Files the installer
    itself writes are updates of the same map, and every command run and
    every file written is also recorded, in order, in the session's log.
 */
module Installer {
  import opened Errors
  import opened Text

  /** The target root: path to content. Directories are not modelled. */
  type Files = map<string, string>

  datatype CmdResult = CmdResult(exitCode: int, output: string, files: Files)

  /** What running a command line does to the target root. */
  type Runner = (string, Files) -> CmdResult

  /** What the session did, in order. `Wrote` replaces a file's contents
      (`open(..., 'w')`), `Appended` adds to them (`open(..., 'a')`). */
  datatype Event = Ran(cmd: string) | Wrote(path: string, text: string) | Appended(path: string, text: string)

  /** `helper_flags`. */
  datatype Flags = Flags(bootloader: bool, base: bool, user: bool)

  /** The partition attributes the installer reads; `text` is how the
      partition prints in messages. */
  datatype Partition = Partition(filesystem: string, encrypted: bool, path: string, realDevice: string, text: string)

  datatype Session = Session(
    mountpoint: string,
    hostname: string,
    profile: Option<string>,
    flags: Flags,
    basePackages: seq<string>,
    partition: Partition,
    bootPartition: Partition,
    files: Files,
    log: seq<Event>)

  /** The session after an operation, and what the operation returned or
      raised. A raise keeps the changes made before it. */
  datatype Out<T> = Out(session: Session, result: Result<T>)

  /** The keyword defaults of `Installer.__init__`. */
  const DefaultBasePackages: string := "base base-devel linux linux-firmware efibootmgr nano"
  const DefaultMountpoint: string := "/mnt"
  const DefaultHostname: string := "ArchInstalled"

  const FlagNames: seq<string> := ["bootloader", "base", "user"]

  const NoFlags: Flags := Flags(false, false, false)

  /** Everything but the flags, the files and the log is left alone. */
  predicate SameSetup(a: Session, b: Session) {
    && a.mountpoint == b.mountpoint && a.hostname == b.hostname && a.profile == b.profile
    && a.basePackages == b.basePackages && a.partition == b.partition && a.bootPartition == b.bootPartition
  }

  /** Flags only ever go from False to True. */
  predicate FlagsGrow(a: Flags, b: Flags) {
    (a.bootloader ==> b.bootloader) && (a.base ==> b.base) && (a.user ==> b.user)
  }

  /** `b` extends `a` by the events `e`. */
  predicate Logged(a: Session, b: Session, e: seq<Event>) {
    b.log == a.log + e
  }

  lemma LoggedChain(a: Session, b: Session, c: Session, e1: seq<Event>, e2: seq<Event>)
    requires Logged(a, b, e1) && Logged(b, c, e2)
    ensures Logged(a, c, e1 + e2)
  {
  }

  // ---------------------------------------------------------------------
  // Files and commands

  function Content(files: Files, path: string): string {
    if path in files then files[path] else ""
  }

  function Write(s: Session, path: string, text: string): (r: Session)
    ensures SameSetup(s, r) && r.flags == s.flags
    ensures r.files == s.files[path := text]
    ensures Logged(s, r, [Wrote(path, text)])
  {
    s.(files := s.files[path := text], log := s.log + [Wrote(path, text)])
  }

  function Append(s: Session, path: string, text: string): (r: Session)
    ensures SameSetup(s, r) && r.flags == s.flags
    ensures r.files == s.files[path := Content(s.files, path) + text]
    ensures Logged(s, r, [Appended(path, text)])
  {
    s.(files := s.files[path := Content(s.files, path) + text], log := s.log + [Appended(path, text)])
  }

  /** `sys_command(cmd)`: the oracle's answer and the session it leaves. */
  function Exec(s: Session, cmd: string, run: Runner): (r: (Session, CmdResult))
    ensures r.1 == run(cmd, s.files)
    ensures SameSetup(s, r.0) && r.0.flags == s.flags
    ensures r.0.files == r.1.files
    ensures Logged(s, r.0, [Ran(cmd)])
  {
    var res := run(cmd, s.files);
    (s.(files := res.files, log := s.log + [Ran(cmd)]), res)
  }

  /** `/usr/bin/arch-chroot <mountpoint> <cmd>`. */
  function Chroot(mountpoint: string, cmd: string): string {
    "/usr/bin/arch-chroot " + mountpoint + " " + cmd
  }

  // ---------------------------------------------------------------------
  // Construction and exit

  /** `Installer(partition, boot_partition, base_packages=..., profile=...,
      mountpoint=..., hostname=...)`; `files` is the target root as found. */
  function Init(partition: Partition, bootPartition: Partition, basePackages: string,
                profile: Option<string>, mountpoint: string, hostname: string, files: Files): (s: Session)
    ensures s.flags == NoFlags
    ensures |s.basePackages| >= 1
    ensures Join(s.basePackages, " ") == basePackages
    ensures forall i :: 0 <= i < |s.basePackages| ==> ' ' !in s.basePackages[i]
    ensures s.mountpoint == mountpoint && s.hostname == hostname && s.profile == profile
    ensures s.partition == partition && s.bootPartition == bootPartition
    ensures s.files == files && s.log == []
  {
    JoinSplit(basePackages, ' ');
    assert [' '] == " ";
    Session(mountpoint, hostname, profile, NoFlags, Split(basePackages, ' '),
            partition, bootPartition, files, [])
  }

  function FlagSet(f: Flags, name: string): bool
    requires name in FlagNames
  {
    if name == "bootloader" then f.bootloader else if name == "base" then f.base else f.user
  }

  /** The position of a flag in `helper_flags`. */
  function FlagRank(name: string): nat {
    if name == "bootloader" then 0 else if name == "base" then 1 else 2
  }

  /** `post_install_check()`: the names of the flags still False, in the
      order `helper_flags` lists them. */
  function PostInstallCheck(s: Session): (missing: seq<string>)
    ensures forall n :: n in missing <==> n in FlagNames && !FlagSet(s.flags, n)
    ensures forall i, j :: 0 <= i < j < |missing| ==> FlagRank(missing[i]) < FlagRank(missing[j])
    ensures |missing| == 0 <==> s.flags == Flags(true, true, true)
  {
    (if s.flags.bootloader then [] else ["bootloader"])
    + (if s.flags.base then [] else ["base"])
    + (if s.flags.user then [] else ["user"])
  }

  /** A fresh session lacks every step. */
  lemma FreshSessionMissesAll(s: Session)
    requires s.flags == NoFlags
    ensures PostInstallCheck(s) == ["bootloader", "base", "user"]
  {
  }

  /** What `__exit__` returns: whether the installation completed, and the
      missing steps it reports. */
  datatype ExitReport = ExitReport(completed: bool, missing: seq<string>)

  /** `__exit__(exc_type, exc, tb)`: an incoming exception is raised again;
      otherwise the installation is complete iff every flag is set. */
  function Exit(s: Session, exception: Option<Error>): (r: Result<ExitReport>)
    ensures r.Err? <==> exception.Some?
    ensures r.Err? ==> r.error == exception.value
    ensures r.Ok? ==> (r.value.completed <==> s.flags == Flags(true, true, true))
    ensures r.Ok? ==> forall n :: n in r.value.missing <==> n in FlagNames && !FlagSet(s.flags, n)
  {
    match exception
    case Some(e) => Err(e)
    case None =>
      var missing := PostInstallCheck(s);
      Ok(ExitReport(|missing| == 0, missing))
  }

  // ---------------------------------------------------------------------
  // Packages and fstab

  const SyncCommand: string := "/usr/bin/pacman -Syy"

  function StrapCommand(mountpoint: string, packages: seq<string>): string {
    "/usr/bin/pacstrap " + mountpoint + " " + Join(packages, " ")
  }

  /** `pacstrap(packages)`: sync the mirrors, then strap the packages only
      if the sync succeeded. True iff both commands exit 0; it never
      raises. */
  function Pacstrap(s: Session, packages: seq<string>, run: Runner): (r: Out<bool>)
    ensures r.result.Ok? && SameSetup(s, r.session) && r.session.flags == s.flags
    ensures run(SyncCommand, s.files).exitCode != 0 ==>
              !r.result.value && Logged(s, r.session, [Ran(SyncCommand)])
    ensures run(SyncCommand, s.files).exitCode == 0 ==>
              && Logged(s, r.session, [Ran(SyncCommand), Ran(StrapCommand(s.mountpoint, packages))])
              && (r.result.value <==>
                    run(StrapCommand(s.mountpoint, packages), run(SyncCommand, s.files).files).exitCode == 0)
  {
    var (synced, sync) := Exec(s, SyncCommand, run);
    if sync.exitCode == 0 then
      var (strapped, strap) := Exec(synced, StrapCommand(s.mountpoint, packages), run);
      Out(strapped, Ok(strap.exitCode == 0))
    else
      Out(synced, Ok(false))
  }

  /** Strapping the session's own package list passes the package string
      it was built from. */
  lemma StrapPassesPackageString(partition: Partition, bootPartition: Partition, packages: string,
                                 profile: Option<string>, mountpoint: string, hostname: string, files: Files)
    ensures var s := Init(partition, bootPartition, packages, profile, mountpoint, hostname, files);
            StrapCommand(s.mountpoint, s.basePackages) == "/usr/bin/pacstrap " + mountpoint + " " + packages
  {
  }

  /** With the keyword defaults, the base system is strapped into `/mnt`
      with the default package string, and the hostname written later is
      `ArchInstalled`. */
  lemma DefaultSession(partition: Partition, bootPartition: Partition, files: Files)
    ensures var s := Init(partition, bootPartition, DefaultBasePackages, None, DefaultMountpoint, DefaultHostname, files);
            && s.mountpoint == "/mnt"
            && StrapCommand(s.mountpoint, s.basePackages) == "/usr/bin/pacstrap " + DefaultMountpoint + " " + DefaultBasePackages
            && SetHostname(s, None).files[s.mountpoint + "/etc/hostname"] == "ArchInstalled\n"
  {
    StrapPassesPackageString(partition, bootPartition, DefaultBasePackages, None, DefaultMountpoint, DefaultHostname, files);
  }

  function FstabPath(mountpoint: string): string {
    mountpoint + "/etc/fstab"
  }

  function GenfstabCommand(mountpoint: string): string {
    "/usr/bin/genfstab -pU " + mountpoint + " >> " + FstabPath(mountpoint)
  }

  const GenfstabMessage: string :=
    "Could not generate fstab, strapping in packages most likely failed (disk out of space?)\n"

  /** `genfstab()`: runs genfstab and raises `RequirementError` iff the
      fstab is absent afterwards. */
  function Genfstab(s: Session, run: Runner): (r: Out<bool>)
    ensures SameSetup(s, r.session) && r.session.flags == s.flags
    ensures Logged(s, r.session, [Ran(GenfstabCommand(s.mountpoint))])
    ensures r.session.files == run(GenfstabCommand(s.mountpoint), s.files).files
    ensures r.result.Ok? <==> FstabPath(s.mountpoint) in r.session.files
    ensures r.result.Ok? ==> r.result.value
    ensures r.result.Err? ==>
              r.result.error == RequirementError(GenfstabMessage + run(GenfstabCommand(s.mountpoint), s.files).output)
  {
    var (after, res) := Exec(s, GenfstabCommand(s.mountpoint), run);
    if FstabPath(s.mountpoint) !in after.files then
      Out(after, Err(RequirementError(GenfstabMessage + res.output)))
    else
      Out(after, Ok(true))
  }

  // ---------------------------------------------------------------------
  // Configuration files

  /** `set_hostname(hostname)`: writes the session's hostname whatever the
      argument is. */
  function SetHostname(s: Session, hostname: Option<string>): (r: Session)
    ensures SameSetup(s, r) && r.flags == s.flags
    ensures r.files == s.files[s.mountpoint + "/etc/hostname" := s.hostname + "\n"]
    ensures Logged(s, r, [Wrote(s.mountpoint + "/etc/hostname", s.hostname + "\n")])
  {
    Write(s, s.mountpoint + "/etc/hostname", s.hostname + "\n")
  }

  /** The argument of `set_hostname` has no effect. */
  lemma SetHostnameIgnoresArgument(s: Session, a: Option<string>, b: Option<string>)
    ensures SetHostname(s, a) == SetHostname(s, b)
  {
  }

  function LocaleGenLine(locale: string, encoding: string): string {
    locale + "." + encoding + " " + encoding + "\n"
  }

  function LocaleConfText(locale: string, encoding: string): string {
    "LANG=" + locale + "." + encoding + "\n"
  }

  /** `set_locale(locale, encoding)`: nothing for an empty locale;
      otherwise appends the locale to locale.gen, replaces locale.conf and
      returns whether `locale-gen` exits 0. */
  function SetLocale(s: Session, locale: string, encoding: string, run: Runner): (r: Out<bool>)
    ensures r.result.Ok? && SameSetup(s, r.session) && r.session.flags == s.flags
    ensures |locale| == 0 ==> r == Out(s, Ok(true))
    ensures |locale| > 0 ==>
              && Logged(s, r.session, [Appended(s.mountpoint + "/etc/locale.gen", LocaleGenLine(locale, encoding)),
                                       Wrote(s.mountpoint + "/etc/locale.conf", LocaleConfText(locale, encoding)),
                                       Ran(Chroot(s.mountpoint, "locale-gen"))])
  {
    if |locale| == 0 then Out(s, Ok(true))
    else
      var s1 := Append(s, s.mountpoint + "/etc/locale.gen", LocaleGenLine(locale, encoding));
      var s2 := Write(s1, s.mountpoint + "/etc/locale.conf", LocaleConfText(locale, encoding));
      var (s3, res) := Exec(s2, Chroot(s.mountpoint, "locale-gen"), run);
      Out(s3, Ok(res.exitCode == 0))
  }

  /** `set_locale` succeeds exactly when `locale-gen` exits 0, run on the
      files just written. */
  lemma SetLocaleResult(s: Session, locale: string, encoding: string, run: Runner)
    requires |locale| > 0
    ensures var gen := s.mountpoint + "/etc/locale.gen";
            var conf := s.mountpoint + "/etc/locale.conf";
            var written := s.files[gen := Content(s.files, gen) + LocaleGenLine(locale, encoding)]
                                  [conf := LocaleConfText(locale, encoding)];
            SetLocale(s, locale, encoding, run).result.value
            <==> run(Chroot(s.mountpoint, "locale-gen"), written).exitCode == 0
  {
  }

  /** `set_keyboard_language(language)`: replaces vconsole.conf. */
  function SetKeyboardLanguage(s: Session, language: string): (r: Out<bool>)
    ensures r.result == Ok(true) && SameSetup(s, r.session) && r.session.flags == s.flags
    ensures r.session.files == s.files[s.mountpoint + "/etc/vconsole.conf" := "KEYMAP=" + language + "\nFONT=lat9w-16\n"]
    ensures r.session.files[s.mountpoint + "/etc/vconsole.conf"] == "KEYMAP=" + language + "\nFONT=lat9w-16\n"
    ensures Logged(s, r.session, [Wrote(s.mountpoint + "/etc/vconsole.conf", "KEYMAP=" + language + "\nFONT=lat9w-16\n")])
  {
    Out(Write(s, s.mountpoint + "/etc/vconsole.conf", "KEYMAP=" + language + "\nFONT=lat9w-16\n"), Ok(true))
  }

  // ---------------------------------------------------------------------
  // Users

  function SudoersLine(entity: string, group: bool): string {
    (if group then "%" else "") + entity + " ALL=(ALL) ALL\n"
  }

  /** `enable_sudo(entity, group)`: appends the sudoers rule; always True. */
  function EnableSudo(s: Session, entity: string, group: bool): (r: Out<bool>)
    ensures r.result == Ok(true) && SameSetup(s, r.session) && r.session.flags == s.flags
    ensures Logged(s, r.session, [Appended(s.mountpoint + "/etc/sudoers", SudoersLine(entity, group))])
    ensures s.mountpoint + "/etc/sudoers" in r.session.files
    ensures r.session.files[s.mountpoint + "/etc/sudoers"]
            == Content(s.files, s.mountpoint + "/etc/sudoers") + SudoersLine(entity, group)
  {
    Out(Append(s, s.mountpoint + "/etc/sudoers", SudoersLine(entity, group)), Ok(true))
  }

  function ChpasswdCommand(mountpoint: string, user: string, password: string): string {
    "/usr/bin/arch-chroot " + mountpoint + " sh -c \"echo '" + user + ":" + password + "' | chpasswd\""
  }

  /** `user_set_pw(user, password)`: setting root's password counts as the
      user step, whatever chpasswd does. */
  function UserSetPw(s: Session, user: string, password: string, run: Runner): (r: Session)
    ensures SameSetup(s, r)
    ensures r.flags == if user == "root" then s.flags.(user := true) else s.flags
    ensures Logged(s, r, [Ran(ChpasswdCommand(s.mountpoint, user, password))])
  {
    var s1 := if user == "root" then s.(flags := s.flags.(user := true)) else s;
    Exec(s1, ChpasswdCommand(s.mountpoint, user, password), run).0
  }

  function GpasswdCommand(mountpoint: string, user: string, group: string): string {
    Chroot(mountpoint, "gpasswd -a " + user + " " + group)
  }

  /** One `gpasswd -a` per group, in order. */
  function GroupEvents(mountpoint: string, user: string, groups: seq<string>): (e: seq<Event>)
    ensures |e| == |groups|
    ensures forall i :: 0 <= i < |groups| ==> e[i] == Ran(GpasswdCommand(mountpoint, user, groups[i]))
  {
    if |groups| == 0 then []
    else [Ran(GpasswdCommand(mountpoint, user, groups[0]))] + GroupEvents(mountpoint, user, groups[1..])
  }

  /** The `gpasswd` loop of `user_create`, one command per group in order. */
  function AddToGroups(s: Session, user: string, groups: seq<string>, run: Runner): (r: Session)
    ensures SameSetup(s, r) && r.flags == s.flags
    ensures Logged(s, r, GroupEvents(s.mountpoint, user, groups))
    ensures |r.log| == |s.log| + |groups| && r.log[..|s.log|] == s.log
    ensures forall i :: 0 <= i < |groups| ==> r.log[|s.log| + i] == Ran(GpasswdCommand(s.mountpoint, user, groups[i]))
    decreases |groups|
  {
    if |groups| == 0 then s
    else
      var first := [Ran(GpasswdCommand(s.mountpoint, user, groups[0]))];
      var s1 := Exec(s, GpasswdCommand(s.mountpoint, user, groups[0]), run).0;
      var r := AddToGroups(s1, user, groups[1..], run);
      LoggedChain(s, s1, r, first, GroupEvents(s.mountpoint, user, groups[1..]));
      assert GroupEvents(s.mountpoint, user, groups) == first + GroupEvents(s.mountpoint, user, groups[1..]);
      r
  }

  function UseraddCommand(mountpoint: string, user: string): string {
    Chroot(mountpoint, "useradd -m -G wheel " + user)
  }

  /** `user_create(user, password, groups, sudo)`; an absent password is
      the empty string, both being falsy. */
  function UserCreate(s: Session, user: string, password: string, groups: seq<string>, sudo: bool, run: Runner)
    : (r: Session)
    ensures SameSetup(s, r)
    ensures r.flags == if sudo || (|password| > 0 && user == "root") then s.flags.(user := true) else s.flags
    ensures Logged(s, r, [Ran(UseraddCommand(s.mountpoint, user))]
                         + (if |password| > 0 then [Ran(ChpasswdCommand(s.mountpoint, user, password))] else [])
                         + GroupEvents(s.mountpoint, user, groups)
                         + (if sudo then [Appended(s.mountpoint + "/etc/sudoers", SudoersLine(user, false))] else []))
  {
    var s1 := Exec(s, UseraddCommand(s.mountpoint, user), run).0;
    var s2 := if |password| > 0 then UserSetPw(s1, user, password, run) else s1;
    var s3 := AddToGroups(s2, user, groups, run);
    var r := if sudo then
               var s4 := EnableSudo(s3, user, false).session;
               s4.(flags := s4.flags.(user := true))
             else s3;
    LoggedChain(s, s1, s2, [Ran(UseraddCommand(s.mountpoint, user))],
                if |password| > 0 then [Ran(ChpasswdCommand(s.mountpoint, user, password))] else []);
    LoggedChain(s, s2, s3, [Ran(UseraddCommand(s.mountpoint, user))]
                           + (if |password| > 0 then [Ran(ChpasswdCommand(s.mountpoint, user, password))] else []),
                GroupEvents(s.mountpoint, user, groups));
    LoggedChain(s, s3, r, [Ran(UseraddCommand(s.mountpoint, user))]
                          + (if |password| > 0 then [Ran(ChpasswdCommand(s.mountpoint, user, password))] else [])
                          + GroupEvents(s.mountpoint, user, groups),
                if sudo then [Appended(s.mountpoint + "/etc/sudoers", SudoersLine(user, false))] else []);
    r
  }

  /** With sudo, `user_create` leaves exactly one new sudoers rule for the
      user, appended after the group commands. */
  lemma UserCreateSudoRule(s: Session, user: string, password: string, groups: seq<string>, run: Runner)
    ensures var r := UserCreate(s, user, password, groups, true, run);
            r.log[|r.log| - 1] == Appended(s.mountpoint + "/etc/sudoers", SudoersLine(user, false))
  {
  }

  // ---------------------------------------------------------------------
  // minimal_installation

  const TmpfsLine: string := "\ntmpfs /tmp tmpfs defaults,noatime,mode=1777 0 0\n"

  const BtrfsMkinitcpio: string :=
    "MODULES=(btrfs)\nBINARIES=(/usr/bin/btrfs)\nFILES=()\n"
    + "HOOKS=(base udev autodetect modconf block encrypt filesystems keyboard fsck)\n"

  /** The package list `minimal_installation` straps. */
  function WithBtrfs(s: Session): (r: Session)
    ensures r.basePackages == s.basePackages + (if s.partition.filesystem == "btrfs" then ["btrfs-progs"] else [])
    ensures r.flags == s.flags && r.files == s.files && r.log == s.log
  {
    if s.partition.filesystem == "btrfs" then s.(basePackages := s.basePackages + ["btrfs-progs"]) else s
  }

  /** The file writes and commands of `minimal_installation` after
      genfstab: the tmpfs line, the hostname, the `en_US.UTF-8` locale,
      the `/root` permissions and, on btrfs, a replaced mkinitcpio.conf and
      a rebuilt initramfs. */
  function ConfigureEvents(mp: string, hostname: string, filesystem: string): seq<Event> {
    [Appended(FstabPath(mp), TmpfsLine),
     Wrote(mp + "/etc/hostname", hostname + "\n"),
     Appended(mp + "/etc/locale.gen", LocaleGenLine("en_US.UTF-8", "UTF-8")),
     Wrote(mp + "/etc/locale.conf", LocaleConfText("en_US.UTF-8", "UTF-8")),
     Ran(Chroot(mp, "locale-gen")),
     Ran(Chroot(mp, "chmod 700 /root"))]
    + (if filesystem == "btrfs"
       then [Wrote(mp + "/etc/mkinitcpio.conf", BtrfsMkinitcpio), Ran(Chroot(mp, "mkinitcpio -p linux"))]
       else [])
  }

  /** What `minimal_installation` does once fstab exists. */
  function Configure(s: Session, run: Runner): (r: Session)
    ensures SameSetup(s, r) && r.flags == s.flags
    ensures Logged(s, r, ConfigureEvents(s.mountpoint, s.hostname, s.partition.filesystem))
  {
    var s1 := Append(s, FstabPath(s.mountpoint), TmpfsLine);
    var s2 := SetHostname(s1, None);
    var s3 := SetLocale(s2, "en_US.UTF-8", "UTF-8", run).session;
    var s4 := Exec(s3, Chroot(s.mountpoint, "chmod 700 /root"), run).0;
    if s.partition.filesystem == "btrfs" then
      var s5 := Write(s4, s.mountpoint + "/etc/mkinitcpio.conf", BtrfsMkinitcpio);
      Exec(s5, Chroot(s.mountpoint, "mkinitcpio -p linux"), run).0
    else s4
  }

  /** The commands `pacstrap` runs for the session's package list. */
  function StrapEvents(s: Session, run: Runner): seq<Event> {
    [Ran(SyncCommand)]
    + (if run(SyncCommand, s.files).exitCode == 0 then [Ran(StrapCommand(s.mountpoint, s.basePackages))] else [])
  }

  /** `minimal_installation()`. */
  function MinimalInstallation(s: Session, run: Runner): (r: Out<bool>)
    ensures r.session.basePackages
            == s.basePackages + (if s.partition.filesystem == "btrfs" then ["btrfs-progs"] else [])
    ensures r.result.Ok? ==> r.result.value && r.session.flags == s.flags.(base := true)
    ensures r.result.Ok? ==>
              Logged(s, r.session, StrapEvents(WithBtrfs(s), run) + [Ran(GenfstabCommand(s.mountpoint))]
                                   + ConfigureEvents(s.mountpoint, s.hostname, s.partition.filesystem))
    ensures r.result.Err? ==>
              && r.session.flags == s.flags && r.result.error.RequirementError?
              && Logged(s, r.session, StrapEvents(WithBtrfs(s), run) + [Ran(GenfstabCommand(s.mountpoint))])
  {
    var s1 := WithBtrfs(s);
    var s2 := Pacstrap(s1, s1.basePackages, run).session;
    var g := Genfstab(s2, run);
    var before := StrapEvents(s1, run) + [Ran(GenfstabCommand(s.mountpoint))];
    assert Logged(s, s2, StrapEvents(s1, run));
    LoggedChain(s, s2, g.session, StrapEvents(s1, run), [Ran(GenfstabCommand(s.mountpoint))]);
    match g.result
    case Err(e) => Out(g.session, Err(e))
    case Ok(_) =>
      var s3 := Configure(g.session, run);
      LoggedChain(s, g.session, s3, before, ConfigureEvents(s.mountpoint, s.hostname, s.partition.filesystem));
      Out(s3.(flags := s3.flags.(base := true)), Ok(true))
  }

  /** The locale lines for `set_locale('en_US.UTF-8')`. */
  lemma EnUsLocaleLines()
    ensures LocaleGenLine("en_US.UTF-8", "UTF-8") == "en_US.UTF-8.UTF-8 UTF-8\n"
    ensures LocaleConfText("en_US.UTF-8", "UTF-8") == "LANG=en_US.UTF-8.UTF-8\n"
  {
  }

  /** `minimal_installation` passes `'en_US.UTF-8'` as the locale, which
      `set_locale` suffixes with the encoding again: a successful run
      writes `en_US.UTF-8.UTF-8` into locale.gen and locale.conf. */
  lemma MinimalLocaleLines(s: Session, run: Runner)
    requires MinimalInstallation(s, run).result.Ok?
    ensures var log := MinimalInstallation(s, run).session.log;
            && Appended(s.mountpoint + "/etc/locale.gen", "en_US.UTF-8.UTF-8 UTF-8\n") in log
            && Wrote(s.mountpoint + "/etc/locale.conf", "LANG=en_US.UTF-8.UTF-8\n") in log
  {
    var log := MinimalInstallation(s, run).session.log;
    var events := ConfigureEvents(s.mountpoint, s.hostname, s.partition.filesystem);
    var k := |log| - |events|;
    assert log[k + 2] == events[2] && log[k + 3] == events[3];
    EnUsLocaleLines();
  }

  /** `minimal_installation` succeeds exactly when genfstab leaves an fstab
      behind, whatever pacstrap returned. */
  lemma MinimalInstallationOutcome(s: Session, run: Runner)
    ensures var strapped := Pacstrap(WithBtrfs(s), WithBtrfs(s).basePackages, run).session;
            MinimalInstallation(s, run).result.Ok?
            <==> FstabPath(s.mountpoint) in run(GenfstabCommand(s.mountpoint), strapped.files).files
  {
  }

  /** A failed mirror sync does not stop `minimal_installation` from
      setting `base`. */
  lemma BaseSetDespiteFailedStrap(s: Session, run: Runner)
    requires run(SyncCommand, s.files).exitCode != 0
    requires FstabPath(s.mountpoint) in run(GenfstabCommand(s.mountpoint), run(SyncCommand, s.files).files).files
    ensures !Pacstrap(WithBtrfs(s), WithBtrfs(s).basePackages, run).result.value
    ensures MinimalInstallation(s, run).result == Ok(true)
    ensures MinimalInstallation(s, run).session.flags.base
  {
    var s1 := WithBtrfs(s);
    var p := Pacstrap(s1, s1.basePackages, run);
    assert p.session.files == run(SyncCommand, s.files).files;
  }

  /** The log of a successful `minimal_installation` starts with the
      mirror sync and runs genfstab before touching fstab. */
  lemma MinimalInstallationOrder(s: Session, run: Runner)
    requires MinimalInstallation(s, run).result.Ok?
    ensures var log := MinimalInstallation(s, run).session.log;
            var k := if run(SyncCommand, s.files).exitCode == 0 then 2 else 1;
            && |log| > |s.log| + k + 1
            && log[|s.log|] == Ran(SyncCommand)
            && log[|s.log| + k] == Ran(GenfstabCommand(s.mountpoint))
            && log[|s.log| + k + 1] == Appended(FstabPath(s.mountpoint), TmpfsLine)
  {
    var s1 := WithBtrfs(s);
    var p := Pacstrap(s1, s1.basePackages, run);
    var g := Genfstab(p.session, run);
    var c := Configure(g.session, run);
    assert c.log[..|g.session.log|] == g.session.log;
    assert g.session.log[..|p.session.log|] == p.session.log;
  }

  // ---------------------------------------------------------------------
  // add_bootloader

  function BootctlFor(mountpoint: string): string {
    Chroot(mountpoint, "bootctl --no-variables --path=/boot install")
  }

  const LoaderConf: string := "default arch\ntimeout 5\n"

  const EntryHeader: string := "title Arch Linux\nlinux /vmlinuz-linux\ninitrd /initramfs-linux.img\n"

  function LoaderPath(mountpoint: string): string {
    mountpoint + "/boot/loader/loader.conf"
  }

  function EntryPath(mountpoint: string): string {
    mountpoint + "/boot/loader/entries/arch.conf"
  }

  /** The kernel options line for the identifier found. */
  function OptionsLine(encrypted: bool, uid: string): string {
    if encrypted then "options cryptdevice=UUID=" + uid + ":luksdev root=/dev/mapper/luksdev rw intel_pstate=no_hwp\n"
    else "options root=PARTUUID=" + uid + " rw intel_pstate=no_hwp\n"
  }

  /** The two forms of the options line never coincide. */
  lemma OptionsLinesDiffer(u: string, v: string)
    ensures OptionsLine(true, u) != OptionsLine(false, v)
  {
    assert OptionsLine(true, u)[8] == 'c';
    assert OptionsLine(false, v)[8] == 'r';
  }

  /** An entry of `/dev/disk/by-uuid` or `/dev/disk/by-partuuid` names the
      partition when the basenames of its resolved path and of the device
      agree. */
  predicate NamesDevice(entry: (string, string), device: string) {
    Basename(entry.1) == Basename(device)
  }

  /** The position of the first entry at or after `k` naming `device`. */
  function FindFrom(entries: seq<(string, string)>, device: string, k: nat): (r: Option<nat>)
    requires k <= |entries|
    ensures r.None? <==> forall i :: k <= i < |entries| ==> !NamesDevice(entries[i], device)
    ensures r.Some? ==> k <= r.value < |entries| && NamesDevice(entries[r.value], device)
    ensures r.Some? ==> forall j :: k <= j < r.value ==> !NamesDevice(entries[j], device)
    decreases |entries| - k
  {
    if k == |entries| then None
    else if NamesDevice(entries[k], device) then Some(k)
    else FindFrom(entries, device, k + 1)
  }

  /** The position of the first entry naming `device`, as the scan of the
      first `os.walk` level finds it. */
  function FindIdentifier(entries: seq<(string, string)>, device: string): (r: Option<nat>)
    ensures r.None? <==> forall i :: 0 <= i < |entries| ==> !NamesDevice(entries[i], device)
    ensures r.Some? ==> r.value < |entries| && NamesDevice(entries[r.value], device)
    ensures r.Some? ==> forall j :: 0 <= j < r.value ==> !NamesDevice(entries[j], device)
  {
    FindFrom(entries, device, 0)
  }

  /** The namespace `add_bootloader` scans and the device it looks for. */
  function Namespace(p: Partition, byUuid: seq<(string, string)>, byPartuuid: seq<(string, string)>)
    : (seq<(string, string)>, string)
  {
    if p.encrypted then (byUuid, p.realDevice) else (byPartuuid, p.path)
  }

  function BootloaderMessage(s: Session): string {
    "Could not identify the UUID of " + s.partition.text + ", there for " + EntryPath(s.mountpoint)
    + " will be broken until fixed."
  }

  /** `add_bootloader()`, with the entries of the first level of
      `/dev/disk/by-uuid` and `/dev/disk/by-partuuid` given as
      `(uid, real path)` pairs in `os.walk` order. */
  function AddBootloader(s: Session, byUuid: seq<(string, string)>, byPartuuid: seq<(string, string)>, run: Runner)
    : (r: Out<bool>)
    ensures SameSetup(s, r.session)
    ensures LoaderPath(s.mountpoint) in r.session.files && r.session.files[LoaderPath(s.mountpoint)] == LoaderConf
    ensures EntryPath(s.mountpoint) in r.session.files
    ensures var (entries, device) := Namespace(s.partition, byUuid, byPartuuid);
            match FindIdentifier(entries, device)
            case Some(i) =>
              && Logged(s, r.session, [Ran(BootctlFor(s.mountpoint)), Wrote(LoaderPath(s.mountpoint), LoaderConf),
                                       Wrote(EntryPath(s.mountpoint),
                                             EntryHeader + OptionsLine(s.partition.encrypted, entries[i].0))])
              && r.result == Ok(true)
              && r.session.flags == s.flags.(bootloader := true)
              && r.session.files[EntryPath(s.mountpoint)]
                 == EntryHeader + OptionsLine(s.partition.encrypted, entries[i].0)
            case None =>
              && Logged(s, r.session, [Ran(BootctlFor(s.mountpoint)), Wrote(LoaderPath(s.mountpoint), LoaderConf),
                                       Wrote(EntryPath(s.mountpoint), EntryHeader)])
              && r.result == Err(RequirementError(BootloaderMessage(s)))
              && r.session.flags == s.flags
              && r.session.files[EntryPath(s.mountpoint)] == EntryHeader
  {
    var prefix := [Ran(BootctlFor(s.mountpoint)), Wrote(LoaderPath(s.mountpoint), LoaderConf)];
    var s1 := Exec(s, BootctlFor(s.mountpoint), run).0;
    var s2 := Write(s1, LoaderPath(s.mountpoint), LoaderConf);
    LoggedChain(s, s1, s2, [Ran(BootctlFor(s.mountpoint))], [Wrote(LoaderPath(s.mountpoint), LoaderConf)]);
    var (entries, device) := Namespace(s.partition, byUuid, byPartuuid);
    match FindIdentifier(entries, device)
    case Some(i) =>
      var entry := EntryHeader + OptionsLine(s.partition.encrypted, entries[i].0);
      var s3 := Write(s2, EntryPath(s.mountpoint), entry);
      LoggedChain(s, s2, s3, prefix, [Wrote(EntryPath(s.mountpoint), entry)]);
      Out(s3.(flags := s3.flags.(bootloader := true)), Ok(true))
    case None =>
      var s3 := Write(s2, EntryPath(s.mountpoint), EntryHeader);
      LoggedChain(s, s2, s3, prefix, [Wrote(EntryPath(s.mountpoint), EntryHeader)]);
      Out(s3, Err(RequirementError(BootloaderMessage(s))))
  }
}

=== FILE: installer_runs.dfy ===
/** Sequences of installer operations run inside `with Installer(...)`.

    A script is a list of calls on the session; the first call that raises
    ends the `with` body and `__exit__` re-raises it. Only three calls can
    raise (`genfstab`, `minimal_installation`, `add_bootloader`) and only
    four set a flag, so the outcome of `__exit__` is decided by which calls
    the script contains.
 */
module InstallerRuns {
  import opened Errors
  import I = Installer

  /** One call on the session, with its arguments. */
  datatype Call =
    | Pacstrap(packages: seq<string>)
    | Genfstab
    | MinimalInstallation
    | AddBootloader
    | SetHostname(hostname: Option<string>)
    | SetLocale(locale: string, encoding: string)
    | SetKeyboardLanguage(language: string)
    | EnableSudo(entity: string, group: bool)
    | UserSetPw(user: string, password: string)
    | UserCreate(user: string, password: string, groups: seq<string>, sudo: bool)

  /** What the calls consult outside the session: the command oracle and
      the first level of the two identifier directories. */
  datatype Env = Env(run: I.Runner, byUuid: seq<(string, string)>, byPartuuid: seq<(string, string)>)

  /** The session after a script, and the exception that ended it, if any. */
  datatype Outcome = Outcome(session: I.Session, raised: Option<Error>)

  predicate SetsBootloader(c: Call) {
    c.AddBootloader?
  }

  predicate SetsBase(c: Call) {
    c.MinimalInstallation?
  }

  predicate SetsUser(c: Call) {
    || (c.UserCreate? && (c.sudo || (|c.password| > 0 && c.user == "root")))
    || (c.UserSetPw? && c.user == "root")
  }

  predicate MayRaise(c: Call) {
    c.Genfstab? || c.MinimalInstallation? || c.AddBootloader?
  }

  /** One call: a call that returns sets exactly the flags it is
      responsible for; a call that raises leaves the flags alone. */
  function Apply(s: I.Session, c: Call, env: Env): (r: Outcome)
    ensures r.raised.Some? ==> MayRaise(c) && r.session.flags == s.flags
    ensures r.raised.None? ==>
              r.session.flags == I.Flags(s.flags.bootloader || SetsBootloader(c),
                                         s.flags.base || SetsBase(c),
                                         s.flags.user || SetsUser(c))
  {
    if MayRaise(c) then ApplyRaising(s, c, env)
    else if c.UserSetPw? || c.UserCreate? then ApplyUsers(s, c, env)
    else ApplyConfig(s, c, env)
  }

  function Finished(o: I.Out<bool>): (r: Outcome)
    ensures r.session == o.session
    ensures r.raised.Some? <==> o.result.Err?
  {
    match o.result
    case Err(e) => Outcome(o.session, Some(e))
    case Ok(_) => Outcome(o.session, None)
  }

  function ApplyRaising(s: I.Session, c: Call, env: Env): (r: Outcome)
    requires MayRaise(c)
    ensures r.raised.Some? ==> r.session.flags == s.flags
    ensures r.raised.None? ==>
              r.session.flags == I.Flags(s.flags.bootloader || SetsBootloader(c), s.flags.base || SetsBase(c), s.flags.user)
  {
    if c.Genfstab? then Finished(I.Genfstab(s, env.run))
    else if c.MinimalInstallation? then Finished(I.MinimalInstallation(s, env.run))
    else Finished(I.AddBootloader(s, env.byUuid, env.byPartuuid, env.run))
  }

  function ApplyUsers(s: I.Session, c: Call, env: Env): (r: Outcome)
    requires c.UserSetPw? || c.UserCreate?
    ensures r.raised.None? && r.session.flags == s.flags.(user := s.flags.user || SetsUser(c))
  {
    match c
    case UserSetPw(user, password) => Outcome(I.UserSetPw(s, user, password, env.run), None)
    case UserCreate(user, password, groups, sudo) =>
      Outcome(I.UserCreate(s, user, password, groups, sudo, env.run), None)
  }

  function ApplyConfig(s: I.Session, c: Call, env: Env): (r: Outcome)
    requires !MayRaise(c) && !c.UserSetPw? && !c.UserCreate?
    ensures r.raised.None? && r.session.flags == s.flags
  {
    match c
    case Pacstrap(packages) => Outcome(I.Pacstrap(s, packages, env.run).session, None)
    case SetHostname(h) => Outcome(I.SetHostname(s, h), None)
    case SetLocale(locale, encoding) => Outcome(I.SetLocale(s, locale, encoding, env.run).session, None)
    case SetKeyboardLanguage(language) => Outcome(I.SetKeyboardLanguage(s, language).session, None)
    case EnableSudo(entity, group) => Outcome(I.EnableSudo(s, entity, group).session, None)
  }

  /** The `with` body: the calls in order, stopping at the first raise. */
  function Script(s: I.Session, calls: seq<Call>, env: Env): Outcome
    decreases |calls|
  {
    if |calls| == 0 then Outcome(s, None)
    else
      var o := Apply(s, calls[0], env);
      if o.raised.Some? then o else Script(o.session, calls[1..], env)
  }

  /** The whole `with` statement: the body, then `__exit__`. */
  function InstallWith(s: I.Session, calls: seq<Call>, env: Env): Result<I.ExitReport> {
    var o := Script(s, calls, env);
    I.Exit(o.session, o.raised)
  }

  /** No script resets a flag, whether it completes or raises. */
  lemma {:induction false} ScriptFlagsGrow(s: I.Session, calls: seq<Call>, env: Env)
    ensures I.FlagsGrow(s.flags, Script(s, calls, env).session.flags)
    decreases |calls|
  {
    if |calls| > 0 {
      var o := Apply(s, calls[0], env);
      if o.raised.None? {
        ScriptFlagsGrow(o.session, calls[1..], env);
      }
    }
  }

  /** Only a call that may raise can end a script early. */
  lemma {:induction false} ScriptRaises(s: I.Session, calls: seq<Call>, env: Env)
    requires Script(s, calls, env).raised.Some?
    ensures exists i :: 0 <= i < |calls| && MayRaise(calls[i])
    decreases |calls|
  {
    var o := Apply(s, calls[0], env);
    if o.raised.None? {
      ScriptRaises(o.session, calls[1..], env);
      var i :| 0 <= i < |calls[1..]| && MayRaise(calls[1..][i]);
      assert calls[i + 1] == calls[1..][i];
    }
  }

  /** The three entries of `helper_flags`. */
  datatype FlagName = Bootloader | Base | User

  function FlagValue(f: I.Flags, n: FlagName): bool {
    match n
    case Bootloader => f.bootloader
    case Base => f.base
    case User => f.user
  }

  /** Whether a call that returns sets the flag `n`. */
  predicate Sets(c: Call, n: FlagName) {
    match n
    case Bootloader => SetsBootloader(c)
    case Base => SetsBase(c)
    case User => SetsUser(c)
  }

  /** Some call among `calls` sets the flag `n`. */
  predicate SomeCallSets(calls: seq<Call>, n: FlagName) {
    exists i :: 0 <= i < |calls| && Sets(calls[i], n)
  }

  lemma SomeCallSetsCons(calls: seq<Call>, n: FlagName)
    requires |calls| > 0
    ensures SomeCallSets(calls, n) <==> Sets(calls[0], n) || SomeCallSets(calls[1..], n)
  {
    if SomeCallSets(calls[1..], n) {
      var i :| 0 <= i < |calls[1..]| && Sets(calls[1..][i], n);
      assert calls[i + 1] == calls[1..][i];
    }
    if SomeCallSets(calls, n) && !Sets(calls[0], n) {
      var i :| 0 <= i < |calls| && Sets(calls[i], n);
      assert calls[1..][i - 1] == calls[i];
    }
  }

  /** The first call of a script that raises nothing returns, and the
      rest of the script runs from the session it leaves. */
  lemma ScriptCons(s: I.Session, calls: seq<Call>, env: Env)
    requires |calls| > 0 && Script(s, calls, env).raised.None?
    ensures Apply(s, calls[0], env).raised.None?
    ensures Script(s, calls, env) == Script(Apply(s, calls[0], env).session, calls[1..], env)
  {
  }

  /** A script that raises nothing sets a flag exactly when the flag was
      already set or one of its calls is responsible for it. */
  lemma {:induction false} ScriptFlag(s: I.Session, calls: seq<Call>, env: Env, n: FlagName)
    requires Script(s, calls, env).raised.None?
    ensures FlagValue(Script(s, calls, env).session.flags, n) <==> FlagValue(s.flags, n) || SomeCallSets(calls, n)
    decreases |calls|
  {
    if |calls| > 0 {
      ScriptCons(s, calls, env);
      var o := Apply(s, calls[0], env);
      ScriptFlag(o.session, calls[1..], env, n);
      SomeCallSetsCons(calls, n);
      assert FlagValue(o.session.flags, n) <==> FlagValue(s.flags, n) || Sets(calls[0], n);
    }
  }

  /** From a fresh session, a script that raises nothing completes exactly
      when it installs the base system, adds the bootloader and sets up a
      user (with sudo, or root's password). */
  lemma FreshScriptCompletes(s: I.Session, calls: seq<Call>, env: Env)
    requires s.flags == I.NoFlags
    requires Script(s, calls, env).raised.None?
    ensures InstallWith(s, calls, env).Ok?
    ensures InstallWith(s, calls, env).value.completed <==>
              SomeCallSets(calls, Base) && SomeCallSets(calls, Bootloader) && SomeCallSets(calls, User)
  {
    ScriptFlag(s, calls, env, Bootloader);
    ScriptFlag(s, calls, env, Base);
    ScriptFlag(s, calls, env, User);
  }

  /** Without any call that may raise, `__exit__` never re-raises. */
  lemma SafeScriptReturns(s: I.Session, calls: seq<Call>, env: Env)
    requires forall i :: 0 <= i < |calls| ==> !MayRaise(calls[i])
    ensures InstallWith(s, calls, env).Ok?
  {
    if Script(s, calls, env).raised.Some? {
      ScriptRaises(s, calls, env);
    }
  }
}

=== FILE: networking.dfy ===
/** The pure parts of `archinstall/lib/networking.py`: packing an interface
    name into the request buffer of the hardware-address ioctl, formatting
    the address found in its reply, and building the map from address to
    interface name.

    The socket and the ioctl are not modelled: the ioctl is a parameter
    that, given the request code and the packed buffer, either answers with
    the reply buffer or fails (`None`, Python's `OSError`).
 */
module Networking {
  import opened Errors
  import opened Text
  import opened Dicts

  newtype byte = x: int | 0 <= x < 256

  /** The ioctl request code for reading a hardware address. */
  const SIOCGIFHWADDR: int := 0x8927

  /** The size of the request buffer, `struct.pack("256s", ...)`. */
  const RequestSize: nat := 256

  /** How many bytes of the encoded name are kept, `[:15]`. */
  const NameLimit: nat := 15

  type Ioctl = (int, seq<byte>) -> Option<seq<byte>>

  // ---------------------------------------------------------------------
  // UTF-8

  /** The UTF-8 encoding of one Unicode scalar value. */
  function EncodeChar(c: char): (bs: seq<byte>)
    ensures 1 <= |bs| <= 4
    ensures |bs| == 1 <==> c as int < 0x80
    ensures bs[0] == 0 <==> c as int == 0
    ensures forall i :: 0 <= i < |bs| ==> bs[i] != 0 || c as int == 0
  {
    var n := c as int;
    if n < 0x80 then [n as byte]
    else if n < 0x800 then [(0xC0 + n / 0x40) as byte, (0x80 + n % 0x40) as byte]
    else if n < 0x10000 then
      [(0xE0 + n / 0x1000) as byte, (0x80 + (n / 0x40) % 0x40) as byte, (0x80 + n % 0x40) as byte]
    else
      [(0xF0 + n / 0x40000) as byte, (0x80 + (n / 0x1000) % 0x40) as byte,
       (0x80 + (n / 0x40) % 0x40) as byte, (0x80 + n % 0x40) as byte]
  }

  /** `bytes(s, "utf-8")`. */
  function Encode(s: string): (bs: seq<byte>)
    ensures |bs| >= |s|
    ensures (forall i :: 0 <= i < |s| ==> s[i] as int != 0) ==> forall j :: 0 <= j < |bs| ==> bs[j] != 0
    decreases |s|
  {
    if |s| == 0 then [] else EncodeChar(s[0]) + Encode(s[1..])
  }

  predicate IsContinuation(b: byte) {
    0x80 <= b < 0xC0
  }

  /** The scalar value `n` as a character, if it is one. */
  function ToChar(n: int): Option<char> {
    if 0 <= n < 0xD800 || 0xE000 <= n < 0x110000 then Some(n as char) else None
  }

  /** Decodes the character that `bs` starts with, returning it with the
      number of bytes it takes; overlong forms are rejected. */
  function DecodeChar(bs: seq<byte>): Option<(char, nat)>
    requires |bs| > 0
  {
    var b0 := bs[0] as int;
    if b0 < 0x80 then Some((b0 as char, 1))
    else if 0xC0 <= b0 < 0xE0 && |bs| >= 2 && IsContinuation(bs[1]) then
      var n := (b0 - 0xC0) * 0x40 + (bs[1] as int - 0x80);
      if n < 0x80 then None
      else match ToChar(n) case Some(c) => Some((c, 2)) case None => None
    else if 0xE0 <= b0 < 0xF0 && |bs| >= 3 && IsContinuation(bs[1]) && IsContinuation(bs[2]) then
      var n := (b0 - 0xE0) * 0x1000 + (bs[1] as int - 0x80) * 0x40 + (bs[2] as int - 0x80);
      if n < 0x800 then None
      else match ToChar(n) case Some(c) => Some((c, 3)) case None => None
    else if 0xF0 <= b0 < 0xF8 && |bs| >= 4 && IsContinuation(bs[1]) && IsContinuation(bs[2])
            && IsContinuation(bs[3]) then
      var n := (b0 - 0xF0) * 0x40000 + (bs[1] as int - 0x80) * 0x1000
               + (bs[2] as int - 0x80) * 0x40 + (bs[3] as int - 0x80);
      if n < 0x10000 then None
      else match ToChar(n) case Some(c) => Some((c, 4)) case None => None
    else None
  }

  /** `bs.decode("utf-8")`, `None` where Python raises. */
  function Decode(bs: seq<byte>): Option<string>
    decreases |bs|
  {
    if |bs| == 0 then Some("")
    else match DecodeChar(bs)
      case None => None
      case Some((c, k)) =>
        if k <= |bs| then
          match Decode(bs[k..])
          case None => None
          case Some(rest) => Some([c] + rest)
        else None
  }

  lemma TwoByteValue(n: int)
    requires 0x80 <= n < 0x800
    ensures 0xC0 <= 0xC0 + n / 0x40 < 0xE0 && 0x80 <= 0x80 + n % 0x40 < 0xC0
    ensures (n / 0x40) * 0x40 + n % 0x40 == n
  {
  }

  lemma ThreeByteValue(n: int)
    requires 0x800 <= n < 0x10000
    ensures 0xE0 <= 0xE0 + n / 0x1000 < 0xF0
    ensures 0x80 <= 0x80 + (n / 0x40) % 0x40 < 0xC0 && 0x80 <= 0x80 + n % 0x40 < 0xC0
    ensures (n / 0x1000) * 0x1000 + ((n / 0x40) % 0x40) * 0x40 + n % 0x40 == n
  {
    assert (n / 0x40) / 0x40 == n / 0x1000;
  }

  lemma FourByteValue(n: int)
    requires 0x10000 <= n < 0x110000
    ensures 0xF0 <= 0xF0 + n / 0x40000 < 0xF8
    ensures 0x80 <= 0x80 + (n / 0x1000) % 0x40 < 0xC0
    ensures 0x80 <= 0x80 + (n / 0x40) % 0x40 < 0xC0 && 0x80 <= 0x80 + n % 0x40 < 0xC0
    ensures (n / 0x40000) * 0x40000 + ((n / 0x1000) % 0x40) * 0x1000
            + ((n / 0x40) % 0x40) * 0x40 + n % 0x40 == n
  {
    assert (n / 0x40) / 0x40 == n / 0x1000;
    assert (n / 0x1000) / 0x40 == n / 0x40000;
  }

  lemma DecodeEncodeChar(c: char, tail: seq<byte>)
    ensures DecodeChar(EncodeChar(c) + tail) == Some((c, |EncodeChar(c)|))
  {
    var n := c as int;
    var bs := EncodeChar(c) + tail;
    if n < 0x80 {
    } else if n < 0x800 {
      TwoByteValue(n);
      assert bs[0] as int == 0xC0 + n / 0x40 && bs[1] as int == 0x80 + n % 0x40;
      assert ToChar(n) == Some(c);
    } else if n < 0x10000 {
      ThreeByteValue(n);
      assert bs[0] as int == 0xE0 + n / 0x1000;
      assert bs[1] as int == 0x80 + (n / 0x40) % 0x40;
      assert bs[2] as int == 0x80 + n % 0x40;
      assert ToChar(n) == Some(c);
    } else {
      FourByteValue(n);
      assert bs[0] as int == 0xF0 + n / 0x40000;
      assert bs[1] as int == 0x80 + (n / 0x1000) % 0x40;
      assert bs[2] as int == 0x80 + (n / 0x40) % 0x40;
      assert bs[3] as int == 0x80 + n % 0x40;
      assert ToChar(n) == Some(c);
    }
  }

  /** Decoding undoes encoding. */
  lemma {:induction false} DecodeEncode(s: string)
    ensures Decode(Encode(s)) == Some(s)
    decreases |s|
  {
    if |s| > 0 {
      var head := EncodeChar(s[0]);
      var bs := Encode(s);
      DecodeEncodeChar(s[0], Encode(s[1..]));
      assert bs[|head|..] == Encode(s[1..]);
      DecodeEncode(s[1..]);
      assert [s[0]] + s[1..] == s;
    }
  }

  // ---------------------------------------------------------------------
  // The request buffer

  /** `struct.pack("256s", bytes(ifname, "utf-8")[:15])`: the encoded
      name cut to 15 bytes and padded with NUL bytes to 256. */
  function PackName(ifname: string): (buf: seq<byte>)
    ensures |buf| == RequestSize
  {
    var enc := Encode(ifname);
    var kept := if |enc| <= NameLimit then enc else enc[..NameLimit];
    kept + seq(RequestSize - |kept|, _ => 0 as byte)
  }

  /** The NUL-terminated string at the start of a buffer, as the kernel
      reads the interface name. */
  function CString(buf: seq<byte>): (s: seq<byte>)
    ensures |s| <= |buf| && s == buf[..|s|]
    ensures forall i :: 0 <= i < |s| ==> s[i] != 0
    ensures |s| < |buf| ==> buf[|s|] == 0
    decreases |buf|
  {
    if |buf| == 0 || buf[0] == 0 then [] else [buf[0]] + CString(buf[1..])
  }

  /** The buffer holds the first 15 bytes of the encoded name followed by
      NUL bytes only. */
  lemma PackNameLayout(ifname: string)
    ensures var enc := Encode(ifname);
            var n := if |enc| <= NameLimit then |enc| else NameLimit;
            && PackName(ifname)[..n] == enc[..n]
            && forall i :: n <= i < RequestSize ==> PackName(ifname)[i] == 0
  {
  }

  lemma CStringOfTerminated(enc: seq<byte>, pad: seq<byte>)
    requires forall i :: 0 <= i < |enc| ==> enc[i] != 0
    requires |pad| > 0 && pad[0] == 0
    ensures CString(enc + pad) == enc
    decreases |enc|
  {
    if |enc| > 0 {
      assert (enc + pad)[1..] == enc[1..] + pad;
      CStringOfTerminated(enc[1..], pad);
      assert [enc[0]] + enc[1..] == enc;
    }
  }

  /** A name without NUL characters that fits in 15 bytes is read back
      unchanged from the request buffer. */
  lemma PackNameRoundTrip(ifname: string)
    requires forall i :: 0 <= i < |ifname| ==> ifname[i] as int != 0
    requires |Encode(ifname)| <= NameLimit
    ensures Decode(CString(PackName(ifname))) == Some(ifname)
  {
    var enc := Encode(ifname);
    var pad := seq(RequestSize - |enc|, _ => 0 as byte);
    CStringOfTerminated(enc, pad);
    DecodeEncode(ifname);
  }

  /** An ASCII name is stored one byte per character. */
  lemma PackAsciiName(ifname: string)
    requires |ifname| <= NameLimit
    requires forall i :: 0 <= i < |ifname| ==> ifname[i] as int < 0x80
    ensures forall i :: 0 <= i < |ifname| ==> PackName(ifname)[i] as int == ifname[i] as int
  {
    AsciiEncode(ifname);
  }

  lemma {:induction false} AsciiEncode(s: string)
    requires forall i :: 0 <= i < |s| ==> s[i] as int < 0x80
    ensures |Encode(s)| == |s|
    ensures forall i :: 0 <= i < |s| ==> Encode(s)[i] as int == s[i] as int
    decreases |s|
  {
    if |s| > 0 {
      AsciiEncode(s[1..]);
      var e := Encode(s);
      forall i | 0 <= i < |s| ensures e[i] as int == s[i] as int {
        if i > 0 {
          assert e[i] == Encode(s[1..])[i - 1];
          assert s[i] == s[1..][i - 1];
        }
      }
    }
  }

  // ---------------------------------------------------------------------
  // Hexadecimal MAC text

  predicate IsHexDigit(c: char) {
    '0' <= c <= '9' || 'a' <= c <= 'f'
  }

  function HexDigit(n: nat): (c: char)
    requires n < 16
    ensures IsHexDigit(c)
  {
    if n < 10 then ('0' as int + n) as char else ('a' as int + n - 10) as char
  }

  function HexValue(c: char): (n: nat)
    requires IsHexDigit(c)
    ensures n < 16
  {
    if '0' <= c <= '9' then c as int - '0' as int else c as int - 'a' as int + 10
  }

  /** `"%02x" % b`. */
  function Hex2(b: byte): (s: string)
    ensures |s| == 2
  {
    [HexDigit(b as int / 16), HexDigit(b as int % 16)]
  }

  predicate IsHexPair(s: string) {
    |s| == 2 && IsHexDigit(s[0]) && IsHexDigit(s[1])
  }

  function PairValue(s: string): byte
    requires IsHexPair(s)
  {
    (HexValue(s[0]) * 16 + HexValue(s[1])) as byte
  }

  lemma PairValueOfHex2(b: byte)
    ensures IsHexPair(Hex2(b)) && PairValue(Hex2(b)) == b
  {
  }

  lemma Hex2OfPairValue(s: string)
    requires IsHexPair(s)
    ensures Hex2(PairValue(s)) == s
  {
    var v := PairValue(s) as int;
    assert v / 16 == HexValue(s[0]) && v % 16 == HexValue(s[1]);
  }

  function HexGroups(bs: seq<byte>): (parts: seq<string>)
    ensures |parts| == |bs|
    ensures forall i :: 0 <= i < |bs| ==> parts[i] == Hex2(bs[i])
  {
    seq(|bs|, i requires 0 <= i < |bs| => Hex2(bs[i]))
  }

  /** `":".join("%02x" % b for b in bs)`. */
  function FormatHex(bs: seq<byte>): string {
    Join(HexGroups(bs), ":")
  }

  /** Python's `s[lo:hi]` for `0 <= lo <= hi`: the bounds are clamped to
      the length. */
  function Slice<T>(s: seq<T>, lo: nat, hi: nat): (r: seq<T>)
    requires lo <= hi
    ensures |s| >= hi ==> r == s[lo..hi]
  {
    if |s| >= hi then s[lo..hi] else if |s| >= lo then s[lo..] else []
  }

  /** The address `get_hw_addr` reads from an ioctl reply: bytes 18 to 23,
      in hex, joined by `:`. */
  function FormatMac(reply: seq<byte>): string {
    FormatHex(Slice(reply, 18, 24))
  }

  /** The layout of `m` hex pairs joined by colons. */
  predicate HexGroupLayout(s: string, m: nat) {
    && |s| == 3 * m - 1
    && forall i :: 0 <= i < |s| ==> if i % 3 == 2 then s[i] == ':' else IsHexDigit(s[i])
  }

  lemma {:induction false} JoinPairsLayout(parts: seq<string>)
    requires |parts| >= 1
    requires forall i :: 0 <= i < |parts| ==> IsHexPair(parts[i])
    ensures HexGroupLayout(Join(parts, ":"), |parts|)
    decreases |parts|
  {
    if |parts| > 1 {
      JoinPairsLayout(parts[1..]);
      var rest := Join(parts[1..], ":");
      var s := Join(parts, ":");
      assert s == parts[0] + ":" + rest;
      forall i | 0 <= i < |s| ensures if i % 3 == 2 then s[i] == ':' else IsHexDigit(s[i]) {
        if i >= 3 {
          assert s[i] == rest[i - 3];
          assert (i - 3) % 3 == i % 3;
        }
      }
    }
  }

  /** A MAC read from a full reply is six lowercase hex pairs joined by
      colons: seventeen characters. */
  lemma FormatMacLayout(reply: seq<byte>)
    requires |reply| >= 24
    ensures HexGroupLayout(FormatMac(reply), 6)
    ensures |FormatMac(reply)| == 17
  {
    var parts := HexGroups(reply[18..24]);
    forall i | 0 <= i < |parts| ensures IsHexPair(parts[i]) {
      PairValueOfHex2(reply[18..24][i]);
    }
    JoinPairsLayout(parts);
  }

  /** Reads colon-separated hex pairs back into bytes. */
  function ParseHex(s: string): Option<seq<byte>> {
    var parts := Split(s, ':');
    if forall i :: 0 <= i < |parts| ==> IsHexPair(parts[i]) then
      Some(seq(|parts|, i requires 0 <= i < |parts| => PairValue(parts[i])))
    else None
  }

  /** Parsing the formatted text gives back the bytes. */
  lemma ParseFormatHex(bs: seq<byte>)
    requires |bs| >= 1
    ensures ParseHex(FormatHex(bs)) == Some(bs)
  {
    var parts := HexGroups(bs);
    forall i | 0 <= i < |parts| ensures ':' !in parts[i] && IsHexPair(parts[i]) {
      PairValueOfHex2(bs[i]);
    }
    SplitJoin(parts, ':');
    assert [':'] == ":";
    assert Split(FormatHex(bs), ':') == parts;
    assert seq(|parts|, i requires 0 <= i < |parts| => PairValue(parts[i])) == bs;
  }

  /** Formatting the parsed bytes gives back the text: text `ParseHex`
      accepts is exactly the text `FormatHex` produces. */
  lemma FormatParseHex(s: string, bs: seq<byte>)
    requires ParseHex(s) == Some(bs)
    ensures FormatHex(bs) == s
  {
    var parts := Split(s, ':');
    forall i | 0 <= i < |parts| ensures HexGroups(bs)[i] == parts[i] {
      Hex2OfPairValue(parts[i]);
    }
    assert HexGroups(bs) == parts;
    JoinSplit(s, ':');
    assert [':'] == ":";
  }

  /** The MAC of a full reply round-trips to the six address bytes. */
  lemma MacRoundTrip(reply: seq<byte>)
    requires |reply| >= 24
    ensures ParseHex(FormatMac(reply)) == Some(reply[18..24])
  {
    ParseFormatHex(reply[18..24]);
  }

  // ---------------------------------------------------------------------
  // get_hw_addr and list_interfaces

  /** `get_hw_addr(ifname)`. */
  function GetHwAddr(ifname: string, ioctl: Ioctl): (r: Result<string>)
    ensures r.Err? <==> ioctl(SIOCGIFHWADDR, PackName(ifname)).None?
    ensures r.Err? ==> r.error == OSError
    ensures r.Ok? ==> r.value == FormatMac(ioctl(SIOCGIFHWADDR, PackName(ifname)).value)
  {
    match ioctl(SIOCGIFHWADDR, PackName(ifname))
    case None => Err(OSError)
    case Some(info) => Ok(FormatMac(info))
  }

  /** The dictionary key `list_interfaces` files an address under. */
  function MacKey(mac: string): (key: string)
    ensures ':' !in key
    ensures |key| == |mac|
    ensures forall i :: 0 <= i < |mac| ==> key[i] == if mac[i] == ':' then '-' else mac[i]
  {
    ReplaceChar(mac, ':', '-')
  }

  /** Whether `list_interfaces(skip_loopback)` looks at an interface. */
  predicate Considered(iface: string, skipLoopback: bool) {
    !(skipLoopback && iface == "lo")
  }

  /** How the loop obtains an interface's address; `list_interfaces` uses
      `get_hw_addr`. */
  type HwLookup = string -> Result<string>

  function HwAddrLookup(ioctl: Ioctl): HwLookup {
    iface => GetHwAddr(iface, ioctl)
  }

  /** The key an interface is filed under, if it is considered and its
      address is found. */
  function KeyOf(iface: string, skipLoopback: bool, lookup: HwLookup): (r: Option<string>)
    ensures r.Some? <==> Considered(iface, skipLoopback) && lookup(iface).Ok?
  {
    if !Considered(iface, skipLoopback) then None
    else
      match lookup(iface)
      case Err(_) => None
      case Ok(mac) => Some(MacKey(mac))
  }

  /** One pass of the loop of `list_interfaces`: a skipped interface
      leaves the dictionary alone, any other has its address looked up and
      is stored under the address key. */
  function AddInterface(found: Dict<string>, iface: string, skipLoopback: bool, lookup: HwLookup)
    : (r: Result<Dict<string>>)
    requires DistinctKeys(found)
    ensures r.Err? <==> Considered(iface, skipLoopback) && lookup(iface).Err?
    ensures r.Err? ==> lookup(iface) == Err(r.error)
    ensures r.Ok? ==> DistinctKeys(r.value)
  {
    if !Considered(iface, skipLoopback) then Ok(found)
    else
      match lookup(iface)
      case Err(e) => Err(e)
      case Ok(mac) =>
        PutKeepsDistinct(found, MacKey(mac), iface);
        Ok(Put(found, MacKey(mac), iface))
  }

  lemma AddInterfaceGet(found: Dict<string>, iface: string, skipLoopback: bool, lookup: HwLookup, key: string)
    requires DistinctKeys(found)
    requires AddInterface(found, iface, skipLoopback, lookup).Ok?
    ensures Get(AddInterface(found, iface, skipLoopback, lookup).value, key)
            == if KeyOf(iface, skipLoopback, lookup) == Some(key) then Some(iface) else Get(found, key)
  {
    if Considered(iface, skipLoopback) {
      GetPut(found, MacKey(lookup(iface).value), iface, key);
    }
  }

  /** The loop of `list_interfaces` over the first `n` names of
      `socket.if_nameindex()`. */
  function ListInterfacesPrefix(names: seq<string>, skipLoopback: bool, lookup: HwLookup, n: nat)
    : (r: Result<Dict<string>>)
    requires n <= |names|
    ensures r.Ok? ==> DistinctKeys(r.value)
    ensures r.Err? ==> exists i :: 0 <= i < n && lookup(names[i]) == Err(r.error)
    decreases n
  {
    if n == 0 then Ok([])
    else
      match ListInterfacesPrefix(names, skipLoopback, lookup, n - 1)
      case Err(e) => Err(e)
      case Ok(found) => AddInterface(found, names[n - 1], skipLoopback, lookup)
  }

  /** `list_interfaces(skip_loopback)` over the interface names in
      `socket.if_nameindex()` order: a failed ioctl propagates as the
      `OSError` it raises. */
  function ListInterfaces(names: seq<string>, skipLoopback: bool, ioctl: Ioctl): (r: Result<Dict<string>>)
    ensures r.Ok? ==> DistinctKeys(r.value)
    ensures r.Err? ==> r.error == OSError
  {
    ListInterfacesPrefix(names, skipLoopback, HwAddrLookup(ioctl), |names|)
  }

  /** Every considered interface among the first `n` has an address,
      stated one interface at a time as the loop meets them. */
  predicate AllAnswer(names: seq<string>, skipLoopback: bool, lookup: HwLookup, n: nat)
    requires n <= |names|
    decreases n
  {
    n == 0 ||
    (AllAnswer(names, skipLoopback, lookup, n - 1)
     && (Considered(names[n - 1], skipLoopback) ==> lookup(names[n - 1]).Ok?))
  }

  /** The step-wise check is the plain "every considered interface". */
  lemma {:induction false} AllAnswerEvery(names: seq<string>, skipLoopback: bool, lookup: HwLookup, n: nat)
    requires n <= |names|
    ensures AllAnswer(names, skipLoopback, lookup, n)
            <==> forall i :: 0 <= i < n && Considered(names[i], skipLoopback) ==> lookup(names[i]).Ok?
    decreases n
  {
    if n > 0 {
      AllAnswerEvery(names, skipLoopback, lookup, n - 1);
    }
  }

  /** The last considered interface among the first `n` whose address has
      key `key`: the reference the loop's overwriting is checked against. */
  function LastWithKey(names: seq<string>, skipLoopback: bool, lookup: HwLookup, key: string, n: nat)
    : (r: Option<string>)
    requires n <= |names|
    ensures r.Some? ==> exists i :: 0 <= i < n && names[i] == r.value && Considered(names[i], skipLoopback)
    decreases n
  {
    if n == 0 then None
    else if KeyOf(names[n - 1], skipLoopback, lookup) == Some(key) then Some(names[n - 1])
    else LastWithKey(names, skipLoopback, lookup, key, n - 1)
  }

  /** The loop fails exactly when some considered interface has no
      address. */
  lemma {:induction false} ListInterfacesPrefixOk(names: seq<string>, skipLoopback: bool, lookup: HwLookup, n: nat)
    requires n <= |names|
    ensures ListInterfacesPrefix(names, skipLoopback, lookup, n).Ok? <==> AllAnswer(names, skipLoopback, lookup, n)
    decreases n
  {
    if n > 0 {
      ListInterfacesPrefixOk(names, skipLoopback, lookup, n - 1);
      var prev := ListInterfacesPrefix(names, skipLoopback, lookup, n - 1);
      if prev.Ok? {
        assert ListInterfacesPrefix(names, skipLoopback, lookup, n)
               == AddInterface(prev.value, names[n - 1], skipLoopback, lookup);
      } else {
        assert ListInterfacesPrefix(names, skipLoopback, lookup, n) == prev;
      }
    }
  }

  /** When the loop succeeds it files every address under its key with
      the last interface that has it. */
  lemma {:induction false} ListInterfacesPrefixGet(names: seq<string>, skipLoopback: bool, lookup: HwLookup,
                                                   n: nat, key: string)
    requires n <= |names|
    requires ListInterfacesPrefix(names, skipLoopback, lookup, n).Ok?
    ensures Get(ListInterfacesPrefix(names, skipLoopback, lookup, n).value, key)
            == LastWithKey(names, skipLoopback, lookup, key, n)
    decreases n
  {
    if n > 0 {
      var prev := ListInterfacesPrefix(names, skipLoopback, lookup, n - 1);
      assert prev.Ok?;
      assert ListInterfacesPrefix(names, skipLoopback, lookup, n)
             == AddInterface(prev.value, names[n - 1], skipLoopback, lookup);
      ListInterfacesPrefixGet(names, skipLoopback, lookup, n - 1, key);
      AddInterfaceGet(prev.value, names[n - 1], skipLoopback, lookup, key);
    }
  }

  /** The ioctl answers for every interface `list_interfaces` considers. */
  predicate IoctlAnswersAll(names: seq<string>, skipLoopback: bool, ioctl: Ioctl) {
    forall i :: 0 <= i < |names| && Considered(names[i], skipLoopback) ==>
      ioctl(SIOCGIFHWADDR, PackName(names[i])).Some?
  }

  /** `list_interfaces` succeeds exactly when the ioctl answers for every
      considered interface, and then maps each address key to the last
      interface in `if_nameindex` order whose address has that key. */
  lemma ListInterfacesSpec(names: seq<string>, skipLoopback: bool, ioctl: Ioctl, key: string)
    ensures ListInterfaces(names, skipLoopback, ioctl).Ok? <==> IoctlAnswersAll(names, skipLoopback, ioctl)
    ensures ListInterfaces(names, skipLoopback, ioctl).Ok? ==>
              Get(ListInterfaces(names, skipLoopback, ioctl).value, key)
              == LastWithKey(names, skipLoopback, HwAddrLookup(ioctl), key, |names|)
  {
    var lookup := HwAddrLookup(ioctl);
    ListInterfacesPrefixOk(names, skipLoopback, lookup, |names|);
    AllAnswerEvery(names, skipLoopback, lookup, |names|);
    assert AllAnswer(names, skipLoopback, lookup, |names|) <==> IoctlAnswersAll(names, skipLoopback, ioctl) by {
      forall i | 0 <= i < |names| ensures lookup(names[i]).Ok? <==> ioctl(SIOCGIFHWADDR, PackName(names[i])).Some? {
      }
    }
    if ListInterfaces(names, skipLoopback, ioctl).Ok? {
      ListInterfacesPrefixGet(names, skipLoopback, lookup, |names|, key);
    }
  }

  /** With `skip_loopback` no entry names `lo`; without it, `lo` is listed
      under its address when it is the last interface enumerated. */
  lemma LoopbackSkippedIffAsked(names: seq<string>, skipLoopback: bool, ioctl: Ioctl)
    requires ListInterfaces(names, skipLoopback, ioctl).Ok?
    ensures skipLoopback ==>
              forall i :: 0 <= i < |ListInterfaces(names, skipLoopback, ioctl).value| ==>
                ListInterfaces(names, skipLoopback, ioctl).value[i].1 != "lo"
    ensures !skipLoopback && |names| > 0 && names[|names| - 1] == "lo" ==>
              exists i :: 0 <= i < |ListInterfaces(names, skipLoopback, ioctl).value|
                && ListInterfaces(names, skipLoopback, ioctl).value[i].1 == "lo"
  {
    var d := ListInterfaces(names, skipLoopback, ioctl).value;
    if skipLoopback {
      forall i | 0 <= i < |d| ensures d[i].1 != "lo" {
        GetEntry(d, i);
        ListInterfacesSpec(names, skipLoopback, ioctl, d[i].0);
      }
    }
    if !skipLoopback && |names| > 0 && names[|names| - 1] == "lo" {
      var lookup := HwAddrLookup(ioctl);
      ListInterfacesSpec(names, skipLoopback, ioctl, "");
      assert IoctlAnswersAll(names, skipLoopback, ioctl);
      assert lookup("lo").Ok?;
      var key := MacKey(lookup("lo").value);
      ListInterfacesSpec(names, skipLoopback, ioctl, key);
      var r := Get(d, key);
      var i :| 0 <= i < |d| && d[i].0 == key && d[i].1 == r.value;
    }
  }
}

=== FILE: ordering.dfy ===
/** Python's `sorted` on a list of strings.

    Python compares strings lexicographically by code point; `sorted`
    returns the candidates in that order. The model sorts by insertion and
    proves the result is ordered, is a permutation of the input, and is the
    only sequence with both properties, so any correct sort (Python's
    Timsort included) yields the same sequence.
 */
module Ordering {

  /** `a <= b` on Python strings. */
  predicate LessOrEqual(a: string, b: string)
    decreases |a|
  {
    |a| == 0 || (|b| > 0 && (a[0] < b[0] || (a[0] == b[0] && LessOrEqual(a[1..], b[1..]))))
  }

  lemma {:induction false} LessOrEqualReflexive(a: string)
    ensures LessOrEqual(a, a)
    decreases |a|
  {
    if |a| > 0 {
      LessOrEqualReflexive(a[1..]);
    }
  }

  lemma {:induction false} LessOrEqualTotal(a: string, b: string)
    ensures LessOrEqual(a, b) || LessOrEqual(b, a)
    decreases |a|
  {
    if |a| > 0 && |b| > 0 && a[0] == b[0] {
      LessOrEqualTotal(a[1..], b[1..]);
    }
  }

  lemma {:induction false} LessOrEqualAntisymmetric(a: string, b: string)
    requires LessOrEqual(a, b) && LessOrEqual(b, a)
    ensures a == b
    decreases |a|
  {
    if |a| > 0 {
      LessOrEqualAntisymmetric(a[1..], b[1..]);
      assert a == [a[0]] + a[1..];
      assert b == [b[0]] + b[1..];
    }
  }

  lemma {:induction false} LessOrEqualTransitive(a: string, b: string, c: string)
    requires LessOrEqual(a, b) && LessOrEqual(b, c)
    ensures LessOrEqual(a, c)
    decreases |a|
  {
    if |a| > 0 && a[0] == b[0] && b[0] == c[0] {
      LessOrEqualTransitive(a[1..], b[1..], c[1..]);
    }
  }

  predicate Sorted(xs: seq<string>) {
    forall i, j :: 0 <= i < j < |xs| ==> LessOrEqual(xs[i], xs[j])
  }

  /** `h` is at most every element of `xs`. */
  predicate LowerBound(h: string, xs: seq<string>) {
    forall k :: 0 <= k < |xs| ==> LessOrEqual(h, xs[k])
  }

  lemma LowerBoundPermutation(h: string, a: seq<string>, b: seq<string>)
    requires multiset(a) == multiset(b) && LowerBound(h, b)
    ensures LowerBound(h, a)
  {
    forall k | 0 <= k < |a| ensures LessOrEqual(h, a[k]) {
      assert a[k] in multiset(b);
      var j :| 0 <= j < |b| && b[j] == a[k];
    }
  }

  lemma ConsSorted(h: string, t: seq<string>)
    requires Sorted(t) && LowerBound(h, t)
    ensures Sorted([h] + t)
  {
    var r := [h] + t;
    forall i, j | 0 <= i < j < |r| ensures LessOrEqual(r[i], r[j]) {
      if i > 0 {
        assert r[i] == t[i - 1] && r[j] == t[j - 1];
      } else {
        assert r[j] == t[j - 1];
      }
    }
  }

  lemma SortedLowerBound(xs: seq<string>, h: string)
    requires Sorted(xs) && |xs| > 0 && LessOrEqual(h, xs[0])
    ensures LowerBound(h, xs)
  {
    forall k | 0 <= k < |xs| ensures LessOrEqual(h, xs[k]) {
      if k > 0 {
        LessOrEqualTransitive(h, xs[0], xs[k]);
      }
    }
  }

  /** Inserts `x` into the ordered sequence `xs` before the first element
      it does not exceed. */
  function Insert(x: string, xs: seq<string>): (r: seq<string>)
    requires Sorted(xs)
    ensures Sorted(r)
    ensures multiset(r) == multiset(xs) + multiset{x}
    ensures |r| == |xs| + 1
    decreases |xs|
  {
    if |xs| == 0 then [x]
    else if LessOrEqual(x, xs[0]) then
      SortedLowerBound(xs, x);
      ConsSorted(x, xs);
      [x] + xs
    else
      var rest := Insert(x, xs[1..]);
      assert xs == [xs[0]] + xs[1..];
      LessOrEqualTotal(x, xs[0]);
      assert LowerBound(xs[0], xs[1..] + [x]);
      LowerBoundPermutation(xs[0], rest, xs[1..] + [x]);
      ConsSorted(xs[0], rest);
      [xs[0]] + rest
  }

  /** `sorted(xs)`. */
  function Sort(xs: seq<string>): (r: seq<string>)
    ensures Sorted(r)
    ensures multiset(r) == multiset(xs)
    ensures |r| == |xs|
    decreases |xs|
  {
    if |xs| == 0 then []
    else
      assert xs == [xs[0]] + xs[1..];
      Insert(xs[0], Sort(xs[1..]))
  }

  /** An ordered permutation is unique: whatever algorithm sorts the
      candidates, the displayed and indexed order is the one `Sort` gives. */
  lemma {:induction false} SortedUnique(a: seq<string>, b: seq<string>)
    requires Sorted(a) && Sorted(b)
    requires multiset(a) == multiset(b)
    ensures a == b
    decreases |a|
  {
    if |a| == 0 {
      assert |multiset(b)| == 0;
    } else {
      assert |b| == |multiset(b)| == |multiset(a)| == |a|;
      assert a[0] in multiset(b);
      var j :| 0 <= j < |b| && b[j] == a[0];
      assert b[0] in multiset(a);
      var i :| 0 <= i < |a| && a[i] == b[0];
      assert LessOrEqual(b[0], a[0]) by {
        if j > 0 {
          assert LessOrEqual(b[0], b[j]);
        } else {
          LessOrEqualReflexive(a[0]);
        }
      }
      assert LessOrEqual(a[0], b[0]) by {
        if i > 0 {
          assert LessOrEqual(a[0], a[i]);
        } else {
          LessOrEqualReflexive(a[0]);
        }
      }
      LessOrEqualAntisymmetric(a[0], b[0]);
      assert a == [a[0]] + a[1..];
      assert b == [b[0]] + b[1..];
      assert multiset(a[1..]) == multiset(a) - multiset{a[0]};
      assert multiset(b[1..]) == multiset(b) - multiset{b[0]};
      SortedUnique(a[1..], b[1..]);
    }
  }

  /** Sorting does not depend on the order the candidates arrive in. */
  lemma SortIgnoresOrder(xs: seq<string>, ys: seq<string>)
    requires multiset(xs) == multiset(ys)
    ensures Sort(xs) == Sort(ys)
  {
    SortedUnique(Sort(xs), Sort(ys));
  }

  /** Sorting any arrangement of an ordered sequence yields that sequence. */
  lemma SortOfPermutation(xs: seq<string>, ys: seq<string>)
    requires Sorted(ys) && multiset(xs) == multiset(ys)
    ensures Sort(xs) == ys
  {
    SortedUnique(Sort(xs), ys);
  }
}

=== FILE: selection.dfy ===
/** The input-resolution logic of the interactive selectors in
    `archinstall/lib/user_interaction.py`.

    Each selector sorts its candidate names, shows them numbered, reads one
    line and interprets it in a fixed order: (blank,) (help,) decimal index
    into the sorted list, exact name, error. Printing is left out; the
    lines the user types are parameters. Selectors that can ask a second
    question (the search filter after `?`/`help`) take the typed lines as a
    list and fail with `EOFError` when it runs out, as `input()` does.
 */
module Selection {
  import opened Errors
  import opened Text
  import opened Ordering
  import opened Dicts

  /** `s.lower() in ("?", "help")`. */
  predicate IsHelp(s: string) {
    Lower(s) == "?" || Lower(s) == "help"
  }

  /** An all-digit line whose value indexes a list of `n` candidates. */
  predicate IsIndexBelow(s: string, n: int) {
    IsDigits(s) && ParseNat(s) < n
  }

  // ---------------------------------------------------------------------
  // select_disk

  const NoDisksMessage := "select_disk() requires a non-empty dictionary of disks to select from."

  function NoSuchDiskMessage(input: string): string {
    "Selected drive does not exist: \"" + input + "\""
  }

  /** `select_disk(dict_o_disks)` with the typed line `input`. The result is
      the selected disk's value, not its name. There is no bounds check on
      the index: an all-digit line past the end is an `IndexError`, even
      when it is also a disk name. */
  function SelectDisk<D>(disks: Dict<D>, input: string): (r: Result<D>)
    ensures |disks| == 0 ==> r == Err(DiskError(NoDisksMessage))
    ensures r.Ok? ==> exists k :: k in Keys(disks) && Get(disks, k) == Some(r.value)
    ensures |disks| > 0 && IsDigits(input) && !IsIndexBelow(input, |disks|) ==> r == Err(IndexError)
    ensures |disks| > 0 && !IsDigits(input) ==>
              r == if input in Keys(disks) then Ok(Value(disks, input)) else Err(DiskError(NoSuchDiskMessage(input)))
  {
    var drives := Sort(Keys(disks));
    assert |drives| == |disks| by {
      assert |multiset(drives)| == |multiset(Keys(disks))|;
    }
    if |drives| >= 1 then
      if IsDigits(input) then
        var pos := ParseNat(input);
        if pos < |drives| then
          assert drives[pos] in multiset(Keys(disks));
          Ok(Value(disks, drives[pos]))
        else Err(IndexError)
      else if input in Keys(disks) then Ok(Value(disks, input))
      else Err(DiskError(NoSuchDiskMessage(input)))
    else Err(DiskError(NoDisksMessage))
  }

  // ---------------------------------------------------------------------
  // select_profile (name resolution only)

  const NoProfilesMessage := "Selecting profiles require a least one profile to be given as an option."
  const NoSuchProfileMessage := "Selected profile does not exist."

  /** The name `select_profile(options)` resolves the typed line `input`
      to, before it loads that profile. */
  function SelectProfile(options: seq<string>, input: string): (r: Result<string>)
    ensures |options| == 0 ==> r == Err(RequirementError(NoProfilesMessage))
    ensures r.Ok? ==> r.value in options
    ensures r.Err? ==> r.error.RequirementError?
    ensures |options| > 0 && !IsIndexBelow(input, |options|) ==>
              r == if input in options then Ok(input) else Err(RequirementError(NoSuchProfileMessage))
  {
    var profiles := Sort(options);
    assert |profiles| == |options| by {
      assert |multiset(profiles)| == |multiset(options)|;
    }
    if |profiles| >= 1 then
      if IsDigits(input) && ParseNat(input) <= |profiles| - 1 then
        assert profiles[ParseNat(input)] in multiset(options);
        Ok(profiles[ParseNat(input)])
      else if input in options then Ok(input)
      else Err(RequirementError(NoSuchProfileMessage))
    else Err(RequirementError(NoProfilesMessage))
  }

  // ---------------------------------------------------------------------
  // select_language

  const NoLanguagesMessage := "Selecting languages require a least one language to be given as an option."
  const NoSuchLanguageMessage := "Selected language does not exist."

  /** The options of length two, in their original order. */
  function CountryCodes(options: seq<string>): (codes: seq<string>)
    ensures forall i :: 0 <= i < |codes| ==> |codes[i]| == 2 && codes[i] in options
    ensures |codes| <= |options|
  {
    if |options| == 0 then []
    else if |options[0]| == 2 then [options[0]] + CountryCodes(options[1..])
    else CountryCodes(options[1..])
  }

  /** The filter keeps every two-letter option as often as it occurs, and
      nothing else. */
  lemma {:induction false} CountryCodesCount(options: seq<string>, x: string)
    ensures multiset(CountryCodes(options))[x] == if |x| == 2 then multiset(options)[x] else 0
  {
    if |options| > 0 {
      CountryCodesCount(options[1..], x);
      assert options == [options[0]] + options[1..];
    }
  }

  lemma {:induction false} CountryCodesComplete(options: seq<string>, x: string)
    requires x in options && |x| == 2
    ensures x in CountryCodes(options)
  {
    if options[0] != x {
      assert x in options[1..];
      CountryCodesComplete(options[1..], x);
    }
  }

  /** The list `select_language` shows and indexes. */
  function Languages(options: seq<string>, onlyCountryCodes: bool): (languages: seq<string>)
    ensures Sorted(languages)
    ensures forall i :: 0 <= i < |languages| ==>
              languages[i] in options && (onlyCountryCodes ==> |languages[i]| == 2)
  {
    var shown := if onlyCountryCodes then CountryCodes(options) else options;
    var languages := Sort(shown);
    assert forall i :: 0 <= i < |languages| ==> languages[i] in multiset(shown);
    languages
  }

  /** The shown list holds each shown option as often as `options` does:
      repeated options are numbered separately. */
  lemma LanguagesCount(options: seq<string>, onlyCountryCodes: bool, x: string)
    ensures multiset(Languages(options, onlyCountryCodes))[x]
            == if !onlyCountryCodes || |x| == 2 then multiset(options)[x] else 0
  {
    if onlyCountryCodes {
      CountryCodesCount(options, x);
    }
  }

  /** Every option is shown, or with `onlyCountryCodes` every option of
      length two. */
  lemma LanguagesComplete(options: seq<string>, onlyCountryCodes: bool, x: string)
    requires x in options && (onlyCountryCodes ==> |x| == 2)
    ensures x in Languages(options, onlyCountryCodes)
  {
    if onlyCountryCodes {
      CountryCodesComplete(options, x);
      assert x in multiset(CountryCodes(options));
    } else {
      assert x in multiset(options);
    }
  }

  /** `select_language(options, show_only_country_codes)` fed the typed
      lines `inputs`. On `?`/`help` the next line is the search filter, and
      selection restarts on `search(filter)` with every result shown;
      `search` stands for `search_keyboard_layout`. A name is looked up in
      the full `options`, not only in the shown list. */
  function SelectLanguage(options: seq<string>, onlyCountryCodes: bool, inputs: seq<string>,
                          search: string -> seq<string>): (r: Result<string>)
    ensures |Languages(options, onlyCountryCodes)| == 0 ==> r == Err(RequirementError(NoLanguagesMessage))
    ensures r.Ok? ==> |inputs| > 0
    ensures r.Ok? && !IsHelp(inputs[0]) ==> r.value in options
    ensures (r.Ok? && !IsHelp(inputs[0]) && onlyCountryCodes &&
             IsIndexBelow(inputs[0], |Languages(options, onlyCountryCodes)|)) ==> |r.value| == 2
    ensures |Languages(options, onlyCountryCodes)| > 0 && |inputs| > 0 && !IsHelp(inputs[0]) ==>
              r == ResolveLanguage(Languages(options, onlyCountryCodes), options, inputs[0])
    ensures |Languages(options, onlyCountryCodes)| > 0 && (|inputs| == 0 || (|inputs| == 1 && IsHelp(inputs[0]))) ==>
              r == Err(EOFError)
    decreases |inputs|
  {
    var languages := Languages(options, onlyCountryCodes);
    if |languages| == 0 then Err(RequirementError(NoLanguagesMessage))
    else if |inputs| == 0 then Err(EOFError)
    else if !IsHelp(inputs[0]) then ResolveLanguage(languages, options, inputs[0])
    else if |inputs| < 2 then Err(EOFError)
    else SelectLanguage(search(inputs[1]), false, inputs[2..], search)
  }

  /** The index-then-name resolution of a line that is not a help request. */
  function ResolveLanguage(languages: seq<string>, options: seq<string>, selected: string): (r: Result<string>)
    requires forall i :: 0 <= i < |languages| ==> languages[i] in options
    ensures r.Ok? ==> r.value in options
    ensures IsIndexBelow(selected, |languages|) ==> r == Ok(languages[ParseNat(selected)])
    ensures IsIndexBelow(selected, |languages|) ==> r.Ok? && exists i :: 0 <= i < |languages| && r.value == languages[i]
    ensures !IsIndexBelow(selected, |languages|) ==>
              r == if selected in options then Ok(selected) else Err(RequirementError(NoSuchLanguageMessage))
  {
    if IsDigits(selected) && ParseNat(selected) <= |languages| - 1 then
      assert languages[ParseNat(selected)] in languages;
      Ok(languages[ParseNat(selected)])
    else if selected in options then Ok(selected)
    else Err(RequirementError(NoSuchLanguageMessage))
  }

  // ---------------------------------------------------------------------
  // select_mirror_regions

  const NoRegionsMessage := "Selecting mirror region require a least one region to be given as an option."
  const NoSuchRegionMessage := "Selected region does not exist."

  /** The loop collecting every region among the first `n` entries of
      `mirrors` whose lower-cased name contains `filter`. */
  function RegionsContainingPrefix<V>(mirrors: Dict<V>, filter: string, n: nat): Dict<V>
    requires n <= |mirrors|
    decreases n
  {
    if n == 0 then []
    else
      var found := RegionsContainingPrefix(mirrors, filter, n - 1);
      var region := mirrors[n - 1].0;
      if Contains(Lower(region), filter) then Put(found, region, Value(mirrors, region))
      else found
  }

  function RegionsContaining<V>(mirrors: Dict<V>, filter: string): Dict<V> {
    RegionsContainingPrefix(mirrors, filter, |mirrors|)
  }

  lemma {:induction false} RegionsContainingPrefixGet<V>(mirrors: Dict<V>, filter: string, n: nat, k: string)
    requires n <= |mirrors|
    ensures Get(RegionsContainingPrefix(mirrors, filter, n), k)
            == if k in Keys(mirrors[..n]) && Contains(Lower(k), filter) then Get(mirrors, k) else None
    decreases n
  {
    if n > 0 {
      RegionsContainingPrefixGet(mirrors, filter, n - 1, k);
      var found := RegionsContainingPrefix(mirrors, filter, n - 1);
      var region := mirrors[n - 1].0;
      KeysPrefixStep(mirrors, n);
      assert k in Keys(mirrors[..n]) <==> k in Keys(mirrors[..n - 1]) || k == region;
      if Contains(Lower(region), filter) {
        GetPut(found, region, Value(mirrors, region), k);
      }
    }
  }

  /** The search result is exactly the sub-dictionary of the regions whose
      lower-cased name contains the filter, with their original values. */
  lemma RegionsContainingGet<V>(mirrors: Dict<V>, filter: string, k: string)
    ensures Get(RegionsContaining(mirrors, filter), k)
            == if Contains(Lower(k), filter) then Get(mirrors, k) else None
  {
    RegionsContainingPrefixGet(mirrors, filter, |mirrors|, k);
    assert mirrors[..|mirrors|] == mirrors;
  }

  lemma RegionsContainingIsSubDict<V>(mirrors: Dict<V>, filter: string)
    ensures SubDict(RegionsContaining(mirrors, filter), mirrors)
  {
    forall k ensures Get(RegionsContaining(mirrors, filter), k).Some? ==>
                     Get(RegionsContaining(mirrors, filter), k) == Get(mirrors, k) {
      RegionsContainingGet(mirrors, filter, k);
    }
  }

  lemma SingletonIsSubDict<V>(mirrors: Dict<V>, region: string)
    requires region in Keys(mirrors)
    ensures SubDict([(region, Value(mirrors, region))], mirrors)
  {
    var d := [(region, Value(mirrors, region))];
    forall k ensures Get(d, k).Some? ==> Get(d, k) == Get(mirrors, k) {
      assert d[1..] == [];
    }
  }

  /** `select_mirror_regions(mirrors)` fed the typed lines `inputs`: a
      blank line selects nothing, `?`/`help` followed by a filter line
      selects every matching region, an index or a name selects one. */
  function SelectMirrorRegions<V>(mirrors: Dict<V>, inputs: seq<string>): (r: Result<Dict<V>>)
    ensures |mirrors| == 0 ==> r == Err(RequirementError(NoRegionsMessage))
    ensures r.Ok? ==> SubDict(r.value, mirrors) && |inputs| > 0
    ensures r.Ok? && !IsHelp(inputs[0]) ==> |r.value| <= 1
    ensures r.Ok? && |r.value| == 0 ==> IsBlank(inputs[0]) || IsHelp(inputs[0])
    ensures |mirrors| > 0 && |inputs| > 0 && IsBlank(inputs[0]) ==> r == Ok([])
    ensures |mirrors| > 0 && (|inputs| == 0 || (|inputs| == 1 && IsHelp(inputs[0]))) ==> r == Err(EOFError)
    ensures |mirrors| > 0 && |inputs| > 0 && !IsBlank(inputs[0]) && !IsHelp(inputs[0])
            && !IsIndexBelow(inputs[0], |mirrors|) ==>
              r == if inputs[0] in Keys(mirrors) then Ok([(inputs[0], Value(mirrors, inputs[0]))])
                   else Err(RequirementError(NoSuchRegionMessage))
  {
    var regions := Sort(Keys(mirrors));
    assert |regions| == |mirrors| by {
      assert |multiset(regions)| == |multiset(Keys(mirrors))|;
    }
    if |regions| >= 1 then
      if |inputs| == 0 then Err(EOFError)
      else
        var selected := inputs[0];
        if |Strip(selected)| == 0 then Ok([])
        else if IsHelp(selected) then
          if |inputs| < 2 then Err(EOFError)
          else
            RegionsContainingIsSubDict(mirrors, Lower(Strip(inputs[1])));
            Ok(RegionsContaining(mirrors, Lower(Strip(inputs[1]))))
        else if IsDigits(selected) && ParseNat(selected) <= |regions| - 1 then
          var region := regions[ParseNat(selected)];
          assert region in multiset(Keys(mirrors));
          SingletonIsSubDict(mirrors, region);
          Ok([(region, Value(mirrors, region))])
        else if selected in Keys(mirrors) then
          SingletonIsSubDict(mirrors, selected);
          Ok([(selected, Value(mirrors, selected))])
        else Err(RequirementError(NoSuchRegionMessage))
    else Err(RequirementError(NoRegionsMessage))
  }

  // ---------------------------------------------------------------------
  // Properties shared by the selectors

  /** A line asks for a search exactly when it is `?` or `help` in any
      mix of upper and lower case. */
  lemma HelpIsCaseInsensitive(s: string)
    ensures IsHelp(s) <==>
              || s == "?"
              || (&& |s| == 4 && (s[0] == 'h' || s[0] == 'H') && (s[1] == 'e' || s[1] == 'E')
                  && (s[2] == 'l' || s[2] == 'L') && (s[3] == 'p' || s[3] == 'P'))
  {
    if |s| == 1 {
      assert Lower(s) == "?" <==> LowerChar(s[0]) == '?';
      assert s == "?" <==> s[0] == '?';
    } else if |s| == 4 {
      assert Lower(s) == "help" <==>
             LowerChar(s[0]) == 'h' && LowerChar(s[1]) == 'e' && LowerChar(s[2]) == 'l' && LowerChar(s[3]) == 'p';
    } else {
      assert |Lower(s)| != 1 && |Lower(s)| != 4;
    }
  }

  /** An all-digit line is neither blank nor a help request. */
  lemma DigitLineIsPlain(s: string)
    requires IsDigits(s)
    ensures !IsBlank(s) && !IsHelp(s)
  {
    assert IsDigit(s[0]);
    assert Lower(s)[0] == s[0];
  }

  lemma LongLineIsNotHelp(s: string)
    requires |s| > 4
    ensures !IsHelp(s)
  {
    assert |Lower(s)| == |s|;
  }

  /** An all-digit line whose value `i` is below the number of disks
      (`str(i)`, but also `0i`) selects the `i`-th disk in sorted name
      order, and the result is that disk's value rather than its name. */
  lemma DiskByIndex<D>(disks: Dict<D>, line: string)
    requires IsIndexBelow(line, |disks|)
    ensures Sort(Keys(disks))[ParseNat(line)] in Keys(disks)
    ensures SelectDisk(disks, line) == Ok(Value(disks, Sort(Keys(disks))[ParseNat(line)]))
  {
    assert Sort(Keys(disks))[ParseNat(line)] in multiset(Keys(disks));
  }

  /** A disk name that is not all digits selects that disk's value. */
  lemma DiskByName<D>(disks: Dict<D>, name: string)
    requires name in Keys(disks) && !IsDigits(name)
    ensures SelectDisk(disks, name) == Ok(Value(disks, name))
  {
  }

  /** A disk whose name is a number at least the number of disks cannot
      be chosen by typing its name: the index reading wins and is out of
      range. */
  lemma DiskIndexHasNoFallback<D>(disks: Dict<D>, name: string)
    requires name in Keys(disks) && IsDigits(name) && ParseNat(name) >= |disks|
    ensures SelectDisk(disks, name) == Err(IndexError)
  {
  }

  /** An all-digit line whose value `i` is below the number of profiles
      selects the `i`-th profile in sorted order. */
  lemma ProfileByIndex(options: seq<string>, line: string)
    requires IsIndexBelow(line, |options|)
    ensures SelectProfile(options, line) == Ok(Sort(options)[ParseNat(line)])
  {
  }

  /** Index interpretation takes precedence over an equal profile name:
      `1` selects `a`, the second name in order, not the profile named `1`. */
  lemma ProfileIndexBeatsName(options: seq<string>)
    requires options == ["1", "a"]
    ensures SelectProfile(options, "1") == Ok("a")
  {
    assert LessOrEqual("1", "a");
    SortOfPermutation(options, options);
    ParseNatToString(1);
    assert NatToString(1) == "1";
    ProfileByIndex(options, "1");
  }

  /** Candidates are sorted before they are indexed. */
  lemma ProfileSortedBeforeIndexing(options: seq<string>)
    requires options == ["gamma", "alpha", "beta"]
    ensures SelectProfile(options, "1") == Ok("beta")
  {
    var sorted := ["alpha", "beta", "gamma"];
    assert LessOrEqual("alpha", "beta") && LessOrEqual("beta", "gamma") && LessOrEqual("alpha", "gamma");
    assert multiset(options) == multiset(sorted);
    SortOfPermutation(options, sorted);
    ParseNatToString(1);
    assert NatToString(1) == "1";
    ProfileByIndex(options, "1");
  }

  /** Any line that is not an in-range index (an out-of-range number, a
      blank line, any other text) selects itself when it is a profile name
      and raises otherwise. */
  lemma ProfileFallbacks(options: seq<string>, input: string)
    requires |options| > 0 && !IsIndexBelow(input, |options|)
    ensures SelectProfile(options, input)
            == if input in options then Ok(input) else Err(RequirementError(NoSuchProfileMessage))
  {
  }

  /** An all-digit line whose value `i` is below the number of shown
      languages selects the `i`-th shown language. */
  lemma LanguageByIndex(options: seq<string>, onlyCountryCodes: bool, line: string,
                        rest: seq<string>, search: string -> seq<string>)
    requires IsIndexBelow(line, |Languages(options, onlyCountryCodes)|)
    ensures SelectLanguage(options, onlyCountryCodes, [line] + rest, search)
            == Ok(Languages(options, onlyCountryCodes)[ParseNat(line)])
  {
    DigitLineIsPlain(line);
    assert ([line] + rest)[0] == line;
  }

  /** A name that is not an in-range index resolves to itself when it is
      among the options, even when only country codes are shown and the
      name is longer than two characters. */
  lemma LanguageByName(options: seq<string>, onlyCountryCodes: bool, name: string,
                       rest: seq<string>, search: string -> seq<string>)
    requires |Languages(options, onlyCountryCodes)| > 0
    requires name in options && !IsHelp(name)
    requires !IsIndexBelow(name, |Languages(options, onlyCountryCodes)|)
    ensures SelectLanguage(options, onlyCountryCodes, [name] + rest, search) == Ok(name)
  {
    assert ([name] + rest)[0] == name;
  }

  /** A help request restarts selection on the search results for the next
      line, showing every result; an empty result then raises. */
  lemma LanguageHelpRestarts(options: seq<string>, onlyCountryCodes: bool, inputs: seq<string>,
                             search: string -> seq<string>)
    requires |Languages(options, onlyCountryCodes)| > 0
    requires |inputs| >= 2 && IsHelp(inputs[0])
    ensures SelectLanguage(options, onlyCountryCodes, inputs, search)
            == SelectLanguage(search(inputs[1]), false, inputs[2..], search)
    ensures |search(inputs[1])| == 0 ==>
              SelectLanguage(options, onlyCountryCodes, inputs, search) == Err(RequirementError(NoLanguagesMessage))
  {
  }

  /** With country codes only, `sv-latin1` is not shown: the two-letter
      codes are listed in sorted order. */
  lemma ShownCountryCodesExample(options: seq<string>)
    requires options == ["us", "sv-latin1", "se"]
    ensures Languages(options, true) == ["se", "us"]
  {
    var tail := options[1..];
    assert tail[0] == "sv-latin1" && |tail[0]| == 9;
    assert tail[1..] == ["se"];
    assert CountryCodes(tail[1..]) == ["se"];
    assert CountryCodes(tail) == ["se"];
    var codes := CountryCodes(options);
    assert codes == ["us", "se"];
    assert LessOrEqual("se", "us");
    assert multiset(codes) == multiset(["se", "us"]);
    SortOfPermutation(codes, ["se", "us"]);
  }

  /** ... but it can still be typed by name ... */
  lemma LanguageHiddenName(options: seq<string>, search: string -> seq<string>)
    requires options == ["us", "sv-latin1", "se"]
    ensures SelectLanguage(options, true, ["sv-latin1"], search) == Ok("sv-latin1")
  {
    ShownCountryCodesExample(options);
    LongLineIsNotHelp("sv-latin1");
    assert !IsDigits("sv-latin1") by {
      assert "sv-latin1"[0] == 's';
    }
    LanguageByName(options, true, "sv-latin1", [], search);
    assert ["sv-latin1"] + [] == ["sv-latin1"];
  }

  /** ... while `1` indexes the shown list. */
  lemma LanguageShownIndex(options: seq<string>, search: string -> seq<string>)
    requires options == ["us", "sv-latin1", "se"]
    ensures SelectLanguage(options, true, ["1"], search) == Ok("us")
  {
    ShownCountryCodesExample(options);
    ParseNatToString(1);
    assert NatToString(1) == "1";
    LanguageByIndex(options, true, "1", [], search);
    assert ["1"] + [] == ["1"];
  }

  /** With only country codes shown, options none of which has two
      letters leave nothing to choose from, whatever is typed. */
  lemma LanguageNoCountryCodes(options: seq<string>, inputs: seq<string>, search: string -> seq<string>)
    requires forall i :: 0 <= i < |options| ==> |options[i]| != 2
    ensures Languages(options, true) == []
    ensures SelectLanguage(options, true, inputs, search) == Err(RequirementError(NoLanguagesMessage))
  {
  }

  /** Selection needs a first line, and a help request a second one:
      without them `input()` reaches end of file. */
  lemma LanguageNeedsInput(options: seq<string>, onlyCountryCodes: bool, line: string,
                           search: string -> seq<string>)
    requires |Languages(options, onlyCountryCodes)| > 0 && IsHelp(line)
    ensures SelectLanguage(options, onlyCountryCodes, [], search) == Err(EOFError)
    ensures SelectLanguage(options, onlyCountryCodes, [line], search) == Err(EOFError)
  {
  }

  /** An all-digit line whose value `i` is below the number of regions
      selects exactly the `i`-th region in sorted order, with its mirrors. */
  lemma MirrorByIndex<V>(mirrors: Dict<V>, line: string, rest: seq<string>)
    requires IsIndexBelow(line, |mirrors|)
    ensures Sort(Keys(mirrors))[ParseNat(line)] in Keys(mirrors)
    ensures SelectMirrorRegions(mirrors, [line] + rest)
            == Ok([(Sort(Keys(mirrors))[ParseNat(line)], Value(mirrors, Sort(Keys(mirrors))[ParseNat(line)]))])
  {
    DigitLineIsPlain(line);
    assert ([line] + rest)[0] == line;
    assert Sort(Keys(mirrors))[ParseNat(line)] in multiset(Keys(mirrors));
  }

  /** A region name that is neither blank, a help request nor an in-range
      index selects exactly that region, with its mirrors. */
  lemma MirrorByName<V>(mirrors: Dict<V>, name: string, rest: seq<string>)
    requires name in Keys(mirrors)
    requires !IsBlank(name) && !IsHelp(name) && !IsIndexBelow(name, |mirrors|)
    ensures SelectMirrorRegions(mirrors, [name] + rest) == Ok([(name, Value(mirrors, name))])
  {
    assert ([name] + rest)[0] == name;
    assert |Sort(Keys(mirrors))| == |mirrors| by {
      assert |multiset(Sort(Keys(mirrors)))| == |multiset(Keys(mirrors))|;
    }
  }

  /** A help request followed by a filter line selects every region whose
      lower-cased name contains the stripped, lower-cased filter. */
  lemma MirrorSearch<V>(mirrors: Dict<V>, inputs: seq<string>, region: string)
    requires |mirrors| > 0 && |inputs| >= 2
    requires IsHelp(inputs[0])
    ensures SelectMirrorRegions(mirrors, inputs).Ok?
    ensures Get(SelectMirrorRegions(mirrors, inputs).value, region)
            == if Contains(Lower(region), Lower(Strip(inputs[1]))) then Get(mirrors, region) else None
  {
    HelpIsNotBlank(inputs[0]);
    assert SelectMirrorRegions(mirrors, inputs) == Ok(RegionsContaining(mirrors, Lower(Strip(inputs[1]))));
    RegionsContainingGet(mirrors, Lower(Strip(inputs[1])), region);
  }

  /** A help request is never a blank line, so the blank check cannot
      swallow it. */
  lemma HelpIsNotBlank(s: string)
    requires IsHelp(s)
    ensures !IsBlank(s)
  {
    assert |s| > 0 && LowerChar(s[0]) == Lower(s)[0];
  }
}

=== FILE: text.dfy ===
/** The string primitives the modelled Python code relies on: `str.split(' ')`,
    `' '.join`, `str.isdigit`, `int`, `str.lower`, `str.strip`, the `in`
    substring test, `str.replace` and `os.path.basename`.

    Strings are sequences of Unicode scalar values, as Python's `str` is.
    Digits and letter case are restricted to ASCII.
 */
module Text {

  // ---------------------------------------------------------------------
  // Splitting and joining

  /** `s.split(sep)` with an explicit one-character separator: every
      occurrence of `sep` cuts, so adjacent separators yield empty parts. */
  function Split(s: string, sep: char): (parts: seq<string>)
    ensures |parts| >= 1
    ensures forall i :: 0 <= i < |parts| ==> sep !in parts[i]
    decreases |s|
  {
    if |s| == 0 then [""]
    else if s[0] == sep then [""] + Split(s[1..], sep)
    else
      var rest := Split(s[1..], sep);
      [[s[0]] + rest[0]] + rest[1..]
  }

  /** `sep.join(parts)`. */
  function Join(parts: seq<string>, sep: string): string
    decreases |parts|
  {
    if |parts| == 0 then ""
    else if |parts| == 1 then parts[0]
    else parts[0] + sep + Join(parts[1..], sep)
  }

  lemma JoinPrefixFirst(h: string, x: string, rest: seq<string>, sep: string)
    ensures Join([h + x] + rest, sep) == h + Join([x] + rest, sep)
  {
    var a := [h + x] + rest;
    var b := [x] + rest;
    assert a[1..] == rest && b[1..] == rest;
    if |rest| > 0 {
      assert Join(a, sep) == (h + x) + sep + Join(rest, sep);
      assert Join(b, sep) == x + sep + Join(rest, sep);
    }
  }

  /** Joining the parts of a split with the same separator gives back the
      original string. */
  lemma {:induction false} JoinSplit(s: string, sep: char)
    ensures Join(Split(s, sep), [sep]) == s
    decreases |s|
  {
    if |s| == 0 {
    } else if s[0] == sep {
      var rest := Split(s[1..], sep);
      JoinSplit(s[1..], sep);
      assert ([""] + rest)[1..] == rest;
      assert Join([""] + rest, [sep]) == "" + [sep] + Join(rest, [sep]);
      assert [sep] + s[1..] == s;
    } else {
      var rest := Split(s[1..], sep);
      JoinSplit(s[1..], sep);
      JoinPrefixFirst([s[0]], rest[0], rest[1..], [sep]);
      assert [rest[0]] + rest[1..] == rest;
      assert [s[0]] + s[1..] == s;
    }
  }

  lemma {:induction false} SplitWithoutSep(a: string, sep: char)
    requires sep !in a
    ensures Split(a, sep) == [a]
    decreases |a|
  {
    if |a| > 0 {
      assert sep !in a[1..] by {
        forall k | 0 <= k < |a[1..]| ensures a[1..][k] != sep {
          assert a[1..][k] == a[k + 1];
        }
      }
      SplitWithoutSep(a[1..], sep);
      assert [a[0]] + a[1..] == a;
    }
  }

  lemma {:induction false} SplitCons(a: string, b: string, sep: char)
    requires sep !in a
    ensures Split(a + [sep] + b, sep) == [a] + Split(b, sep)
    decreases |a|
  {
    var s := a + [sep] + b;
    if |a| == 0 {
      assert s[0] == sep && s[1..] == b;
    } else {
      assert sep !in a[1..] by {
        forall k | 0 <= k < |a[1..]| ensures a[1..][k] != sep {
          assert a[1..][k] == a[k + 1];
        }
      }
      assert s[0] == a[0] && s[0] != sep;
      assert s[1..] == a[1..] + [sep] + b;
      SplitCons(a[1..], b, sep);
      assert [a[0]] + a[1..] == a;
    }
  }

  /** Splitting a join recovers the parts, provided none of them contains
      the separator (and there is at least one part, as `split` never
      returns an empty list). */
  lemma {:induction false} SplitJoin(parts: seq<string>, sep: char)
    requires |parts| >= 1
    requires forall i :: 0 <= i < |parts| ==> sep !in parts[i]
    ensures Split(Join(parts, [sep]), sep) == parts
    decreases |parts|
  {
    if |parts| == 1 {
      SplitWithoutSep(parts[0], sep);
    } else {
      SplitJoin(parts[1..], sep);
      SplitCons(parts[0], Join(parts[1..], [sep]), sep);
      assert [parts[0]] + parts[1..] == parts;
    }
  }

  // ---------------------------------------------------------------------
  // Digits and numbers

  predicate IsDigit(c: char) {
    '0' <= c <= '9'
  }

  /** `s.isdigit()` for ASCII input: non-empty and made of decimal digits. */
  predicate IsDigits(s: string) {
    |s| > 0 && forall i :: 0 <= i < |s| ==> IsDigit(s[i])
  }

  function DigitValue(c: char): nat
    requires IsDigit(c)
  {
    c as int - '0' as int
  }

  function DigitChar(d: nat): (c: char)
    requires d < 10
    ensures IsDigit(c) && DigitValue(c) == d
  {
    ('0' as int + d) as char
  }

  /** `int(s)` for a string of decimal digits; leading zeros are allowed. */
  function ParseNat(s: string): nat
    requires forall i :: 0 <= i < |s| ==> IsDigit(s[i])
    decreases |s|
  {
    if |s| == 0 then 0
    else ParseNat(s[..|s| - 1]) * 10 + DigitValue(s[|s| - 1])
  }

  /** `str(n)` for a natural number. */
  function NatToString(n: nat): (s: string)
    ensures IsDigits(s)
    ensures |s| > 1 ==> s[0] != '0'
    decreases n
  {
    if n < 10 then [DigitChar(n)]
    else NatToString(n / 10) + [DigitChar(n % 10)]
  }

  /** `int(str(n)) == n`. */
  lemma {:induction false} ParseNatToString(n: nat)
    ensures ParseNat(NatToString(n)) == n
    decreases n
  {
    var s := NatToString(n);
    if n >= 10 {
      ParseNatToString(n / 10);
      assert s[..|s| - 1] == NatToString(n / 10);
    }
  }

  // ---------------------------------------------------------------------
  // Case and whitespace

  /** `c.lower()` for ASCII letters; every other character is unchanged. */
  function LowerChar(c: char): char {
    if 'A' <= c <= 'Z' then (c as int + 32) as char else c
  }

  function Lower(s: string): (r: string)
    ensures |r| == |s|
    ensures forall i :: 0 <= i < |s| ==> r[i] == LowerChar(s[i])
  {
    seq(|s|, i requires 0 <= i < |s| => LowerChar(s[i]))
  }

  /** The characters Python's `str.isspace` accepts. */
  predicate IsSpace(c: char) {
    var n := c as int;
    || n == 0x20 || 0x09 <= n <= 0x0D || 0x1C <= n <= 0x1F
    || n == 0x85 || n == 0xA0 || n == 0x1680 || 0x2000 <= n <= 0x200A
    || n == 0x2028 || n == 0x2029 || n == 0x202F || n == 0x205F || n == 0x3000
  }

  predicate IsBlank(s: string) {
    forall i :: 0 <= i < |s| ==> IsSpace(s[i])
  }

  /** The number of whitespace characters `s` starts with. */
  function BlankPrefixLength(s: string): (k: nat)
    ensures k <= |s|
    ensures forall i :: 0 <= i < k ==> IsSpace(s[i])
    ensures k < |s| ==> !IsSpace(s[k])
    decreases |s|
  {
    if |s| > 0 && IsSpace(s[0]) then 1 + BlankPrefixLength(s[1..]) else 0
  }

  /** The index at which the whitespace `s` ends with begins. */
  function BlankSuffixStart(s: string): (j: nat)
    ensures j <= |s|
    ensures forall i :: j <= i < |s| ==> IsSpace(s[i])
    ensures j > 0 ==> !IsSpace(s[j - 1])
    decreases |s|
  {
    if |s| > 0 && IsSpace(s[|s| - 1]) then BlankSuffixStart(s[..|s| - 1]) else |s|
  }

  /** `r` is what remains of `s` after removing the blank prefix `s[..k]`
      and the blank suffix that follows `r`. */
  predicate StrippedAt(s: string, k: int, r: string) {
    && 0 <= k <= |s| - |r|
    && s[k..k + |r|] == r
    && (forall i :: 0 <= i < k ==> IsSpace(s[i]))
    && (forall i :: k + |r| <= i < |s| ==> IsSpace(s[i]))
  }

  /** `s.strip()`: the slice of `s` left after removing whitespace on both
      ends. */
  function Strip(s: string): (r: string)
    ensures |r| == 0 <==> IsBlank(s)
    ensures |r| > 0 ==> !IsSpace(r[0]) && !IsSpace(r[|r| - 1])
    ensures exists k :: StrippedAt(s, k, r)
  {
    var k := BlankPrefixLength(s);
    var j := BlankSuffixStart(s);
    if k < j then
      assert StrippedAt(s, k, s[k..j]);
      s[k..j]
    else
      assert StrippedAt(s, 0, "");
      ""
  }

  // ---------------------------------------------------------------------
  // Substrings, replacement, paths

  predicate StartsWith(s: string, prefix: string) {
    |prefix| <= |s| && s[..|prefix|] == prefix
  }

  /** Python's `needle in hay` on strings. */
  predicate Contains(hay: string, needle: string)
    decreases |hay|
  {
    StartsWith(hay, needle) || (|hay| > 0 && Contains(hay[1..], needle))
  }

  predicate OccursAt(hay: string, needle: string, i: int) {
    0 <= i <= |hay| - |needle| && hay[i..i + |needle|] == needle
  }

  /** The scan agrees with the textbook definition of a substring. */
  lemma {:induction false} ContainsAt(hay: string, needle: string)
    ensures Contains(hay, needle) <==> exists i :: OccursAt(hay, needle, i)
    decreases |hay|
  {
    if |hay| > 0 {
      ContainsAt(hay[1..], needle);
      if Contains(hay[1..], needle) {
        var i :| OccursAt(hay[1..], needle, i);
        assert hay[i + 1..i + 1 + |needle|] == hay[1..][i..i + |needle|];
        assert OccursAt(hay, needle, i + 1);
      }
      if StartsWith(hay, needle) {
        assert OccursAt(hay, needle, 0);
      }
      if exists i :: OccursAt(hay, needle, i) {
        var i :| OccursAt(hay, needle, i);
        if i > 0 {
          assert hay[1..][i - 1..i - 1 + |needle|] == hay[i..i + |needle|];
          assert OccursAt(hay[1..], needle, i - 1);
        } else {
          assert StartsWith(hay, needle);
        }
      }
    } else {
      if StartsWith(hay, needle) {
        assert OccursAt(hay, needle, 0);
      }
      if exists i :: OccursAt(hay, needle, i) {
        var i :| OccursAt(hay, needle, i);
        assert StartsWith(hay, needle);
      }
    }
  }

  /** `s.replace(a, b)` for single characters. */
  function ReplaceChar(s: string, a: char, b: char): (r: string)
    ensures |r| == |s|
    ensures forall i :: 0 <= i < |s| ==> r[i] == (if s[i] == a then b else s[i])
  {
    seq(|s|, i requires 0 <= i < |s| => if s[i] == a then b else s[i])
  }

  /** The position just after the last `/` among the first `n` characters
      of `p`, or 0 when there is none. */
  function SlashEnd(p: string, n: nat): (k: nat)
    requires n <= |p|
    ensures k <= n
    ensures forall i :: k <= i < n ==> p[i] != '/'
    ensures k > 0 ==> p[k - 1] == '/'
    decreases n
  {
    if n == 0 then 0 else if p[n - 1] == '/' then n else SlashEnd(p, n - 1)
  }

  /** `os.path.basename(p)`: what follows the last `/`. */
  function Basename(p: string): string {
    p[SlashEnd(p, |p|)..]
  }

  /** The basename is the longest suffix of `p` free of `/`. */
  lemma BasenameSuffix(p: string)
    ensures '/' !in Basename(p)
    ensures |Basename(p)| <= |p| && Basename(p) == p[|p| - |Basename(p)|..]
    ensures |Basename(p)| < |p| ==> p[|p| - |Basename(p)| - 1] == '/'
  {
    var k := SlashEnd(p, |p|);
    assert forall i :: 0 <= i < |p[k..]| ==> p[k..][i] == p[k + i];
  }
}
